=== FILE: README.md ===
# A model of the browser-script interpreter

`main.py` runs a line-oriented script against a Selenium browser. For each
line, `CommandExecutor.run_line`:

1. strips the line and skips it if it is blank or a `#` comment;
2. splits it with `shlex`;
3. replaces every `${name}` placeholder with a value stored by `set_var`;
4. resolves the command name through `ALIASES` and `COMMAND_SPECS`;
5. joins trailing arguments and checks the argument count;
6. calls the `cmd_*` handler.

A small set of exceptions is caught, and the ignore-error flag decides
whether a line that raised one is logged and skipped or ends the run.
`run_file` runs each line of a file in order.

This project models that pipeline in Dafny, from the line's text to the
requests sent to the browser, and proves what it guarantees.

- `Placeholders` / `Rewriting`: `_var_filter`. The regular expression is
  modelled character by character. Substitution replaces the leftmost match
  and rescans until no placeholder is left. A missing key raises
  `RuntimeError`. The recursion limit is a depth bound.
- `Registry`: the command table, the aliases, name resolution, and the
  Python signature of every handler.
- `Arguments`: `join_rest`, the join-from rule and the arity check.
- `Keys`: `_get_by` and `_parse_keys` with the `SEARCH`, `KEYS` and
  `KEY_COMBOS` tables.
- `Cookies`: the `name:value;…` syntax of `cookies_set`.
- `Integers`: `parse_int`, Python's `int()` on ASCII digits, with the default
  limit of 4300 digits on a decimal string (`sys.get_int_max_str_digits()`),
  and the ranges in which `float` and `time.sleep` accept an integer.
- `Text`: `str.strip` (and the same strip for another class of white
  space, as `int()` uses), `split`, `join`, `lower`, `upper`, `in` and
  `replace(…, 1)`.
- `Environment`: the browser, the file system and the console, as an oracle.
  The oracle answers each request given all earlier ones. The interpreter
  state is the variable store, the keep-open flag, the request trace and the
  console output.
- `Handlers`: every registered `cmd_*` method. The model fixes which checks
  it makes, which requests it issues in which order, and which exception it
  raises.
- `Faults`: the exceptions and the ignore-error policy.
- `Executor`: `run_line` and `run_file`.
- `Scenario`: one script, run in both modes.

## Model

| member | source | states |
|---|---|---|
| Placeholders.MatchAt | main.py:396 | a match of the placeholder pattern at a position starts with `${` and ends inside the text |
| Placeholders.MatchIsPlaceholder | main.py:396 | every match of the pattern is `${`, an identifier with an optional `\|…` filter suffix, then `}` |
| Placeholders.PlaceholderMatches | main.py:396 | conversely, the pattern matches wherever such a placeholder starts, and ends at its closing brace |
| Placeholders.Search | main.py:828 | `re.search` returns a position where the pattern matches |
| Placeholders.SearchIsLeftmost | main.py:828 | no match is missed: the search result is at or before every position where the pattern matches |
| Placeholders.NoOpenerNoPlaceholder | main.py:826-827 | the fast path for a token without `${` agrees with the search: such a token has no placeholder |
| Placeholders.NoDollarUnchanged | main.py:826-827 | a token without `$` comes back unchanged, whatever the store holds |
| Placeholders.FirstOccurrenceIsMatch | main.py:832-834 | the first occurrence of the matched text is the match itself, so `replace(name, value, 1)` rewrites exactly the leftmost placeholder |
| Placeholders.Step | main.py:826-834 | one pass finishes iff no placeholder is left; otherwise it looks up the leftmost key and, when the key is stored, splices in its value |
| Placeholders.Substitute | main.py:825-837 | a successful substitution leaves no placeholder, and a token without placeholders is returned as it is |
| Placeholders.SubstituteErrors | main.py:833-837 | substitution fails only on a key the store lacks, or at the recursion limit |
| Placeholders.UndefinedFails | main.py:833-837 | a leftmost placeholder whose key was never stored raises `UndefinedVariable` naming that key |
| Placeholders.SubstituteStep | main.py:833-835 | with the key stored, substitution continues on the spliced token with one level less |
| Placeholders.DepthMonotone | main.py:835 | a deeper recursion limit never changes a result already reached |
| Placeholders.SubstituteIdempotent | main.py:825-837 | substituting a substituted token changes nothing |
| Placeholders.SplicedPlaceholderRescanned | main.py:830-837 | a stored `$` spliced before `{x}` forms a new placeholder `${x}`; the rescan finds it and fails on the undefined `x` |
| Placeholders.NestedValueExpanded | main.py:830-835 | on an arbitrary store, a stored value holding a placeholder is expanded in turn: `b` = `${a}2` and `a` = `1` make `${b}` into `12` (`set_var` never stores such a value) |
| Rewriting.Iterate | main.py:825-837 | rewriting to a fixed point stops only on a subject the step leaves alone, and a subject already fixed is returned at once |
| Rewriting.MissingKeyOnTrail | main.py:833-837 | a missing-key failure is reported by the last subject visited |
| Rewriting.DepthMonotone | main.py:835 | a larger step bound never changes a fixed point that was reached |
| Registry.RegistryWellFormed | main.py:67-150 | every bounded entry admits some argument count; every joining entry is unbounded and needs exactly one argument past the join position |
| Registry.ArityMatchesSignature | main.py:864-882 | every argument count that passes the arity check and, for a command with a join, is at most one past the join position binds to the handler's Python signature. Such counts are exactly the ones the join leaves, so the reflective call never raises `TypeError`. The arity check alone does not suffice: `assert_text` has no maximum |
| Registry.AliasTargetsRegistered | main.py:200-209 | every alias resolves to a registered command |
| Registry.ResolveExamples | main.py:853 | alias lookup is exact and lower-casing comes after it: `L_click` and `CLICK` reach `click`; `l_click` and `PUT` reach nothing |
| Arguments.JoinRest | main.py:275-276 | there is nothing to join past the end of the list |
| Arguments.JoinRestSplits | main.py:275-276 | joining loses nothing when no part contains a space: splitting the result on spaces gives the parts back |
| Arguments.JoinTail | main.py:864-869 | fails iff there are fewer arguments than the join position; otherwise keeps the head, and has one more argument iff the joined tail is non-empty or the entry needs exactly one more |
| Arguments.JoinSpaceEmpty | main.py:868 | the joined tail is empty iff there is exactly one trailing argument and it is empty |
| Arguments.Normalize | main.py:864-876 | a join failure is "insufficient"; after the join, normalisation succeeds iff the joined count is within the entry's bounds, passes the joined list on, and fails with "insufficient" iff the count is below the minimum, "too many" otherwise |
| Arguments.PlainArity | main.py:871-876 | without a join, the arguments reach the handler unchanged iff their count is within bounds; too few gives "insufficient" and too many "too many" |
| Arguments.NormalizedFitsSignature | main.py:864-882 | every normalised list binds to the handler's signature |
| Arguments.RegistryJoinKeepsTail | main.py:864-869 | for registry entries the joined argument is always kept, even when empty |
| Arguments.RegistryJoinFails | main.py:864-866 | for registry entries, normalisation of a joining command fails iff the arguments before the join are missing |
| Arguments.EmptyTailDropped | main.py:867-869 | an empty tail is dropped when the entry does not need it |
| Arguments.NormalizeExamples | main.py:864-876 | `assert_text ID foo hello world` gets `["ID","foo","hello world"]`; `assert_url_contains` alone gets `[""]`; too few and too many arguments are refused |
| Keys.GetBy | main.py:403-407 | the strategy found is the one whose `SEARCH` key is the upper-cased key; any other key raises `KeyError` naming the key as written |
| Keys.GetByFindsEveryStrategy | main.py:154-163 | every strategy is reached from its key in any letter case |
| Keys.GetByExamples | main.py:403-407 | `id` and `xPath` resolve; `ids` is refused |
| Keys.ParseToken | main.py:417-433 | a token yields one or two items. It fails exactly when it is braced and names neither a key nor a combination, and then fails with its own text. An unbraced token that names neither is typed as written |
| Keys.ParseKeys | main.py:415-434 | succeeds iff every token parses, and yields between one and two items per token |
| Keys.ParseKeysAppend | main.py:415-434 | parsing distributes over concatenation: items come out in token order and the first failing token decides the fault |
| Keys.ParseKeysSingle | main.py:415-434 | a one-token list parses as its token |
| Keys.UnbracedNeverFails | main.py:427-433 | tokens without braces never fail |
| Keys.KeyNameParses | main.py:165-187 | every key is reached from its name, braced or not, in any letter case |
| Keys.ComboNameParses | main.py:189-197 | every combination is reached from its name, braced or not, in any letter case, as Control plus its letter |
| Keys.TablesDisjoint | main.py:165-197 | no name is both a key and a combination, so the order in which the tables are consulted never matters |
| Keys.ParseTokenExamples | main.py:417-433 | `{enter}` is Enter, `ctrl_a` is Control+a, `hi` and `{}` are text, `{NOPE}` is refused |
| Keys.ParseKeysExample | main.py:415-434 | a mixed token list yields its items in order |
| Cookies.ParseEntry | main.py:791-797 | a parsed cookie has no `:` in its name or value; a refused entry is named in the fault |
| Cookies.ParseEntryRoundTrip | main.py:791-797 | an entry parses to a cookie iff it is that cookie's `name:value` text and neither part contains `:` |
| Cookies.ParseEntries | main.py:790-797 | cookies come out in entry order, each parsed from its entry, until the first malformed entry, which is reported |
| Cookies.ParseRendered | main.py:790-797 | rendering plain cookies and parsing the text gives them back, none malformed |
| Cookies.RenderParsed | main.py:790-797 | a text whose entries all parse is the rendering of its cookies |
| Cookies.TrailingSeparatorFails | main.py:790-794 | a trailing `;` leaves an empty last entry: the cookies before it are parsed and the empty entry is malformed |
| Cookies.ParseCookiesExample | main.py:790-797 | `a:1;b: 2` gives `a`=`1` and `b`=` 2`, with the space kept |
| Integers.ParseIntString | main.py:279-283 | `parse_int` reads back every integer as Python prints it exactly when it has at most 4300 digits; a longer one is refused |
| Integers.LongDigitsRefused | main.py:279-283 | a run of more than 4300 digits raises `ValueError`, whatever its value |
| Integers.ParseIntDoubleUnderscoreExample | main.py:279-283 | two underscores in a row are refused |
| Integers.IntPaddingIgnored | main.py:279-283 | white space that `int` skips, before and after the text, never changes the result |
| Integers.SeparatorRefused | main.py:279-283 | an ASCII separator U+001C-U+001F at either end is refused, although `str.strip` counts it as white space |
| Handlers.Locate | main.py:409-410 | an unknown strategy fails before any request; otherwise exactly one lookup is issued, and it fails iff the browser fails it |
| Handlers.WaitSecondsExplicit | main.py:683 | an explicit timeout, even `0`, is used as given; one past the digit limit raises `ValueError` |
| Handlers.SelectModeCaseInsensitive | main.py:728-737 | letter case of the mode never matters: two spellings of one mode choose the same option and succeed or fail together |
| Handlers.SelectModeExamples | main.py:728-737 | `Text` and `VALUE` are modes; `label` is not |
| Handlers.SelectIndexExamples | main.py:734-735 | `index 2` selects the third option |
| Handlers.AddCookies | main.py:790-797 | only requests are added; on success the trace gains one `add_cookie` per cookie, in order; a failure comes from the browser |
| Handlers.CookiesSetCommand | main.py:789-797 | the well-formed cookies before the first malformed entry are added, then the malformed entry raises `AssertionError` |
| Handlers.AddCookiesAccepted | main.py:790-797 | a browser that accepts every cookie lets the loop finish |
| Handlers.CookiesSetTrailingSeparator | main.py:789-797 | `cookies_set "a:1;b:2;"` adds both cookies, in order, then fails on the empty entry |
| Handlers.GestureCommand | main.py:437-454 | a one-element gesture only adds requests; on success exactly two, `find_element` with the resolved strategy and the gesture on the element it returned |
| Handlers.WriteCommand | main.py:456-459 | `write` clicks the element, then types the words rejoined with single spaces |
| Handlers.SendKeysCommand | main.py:461-465 | a bad key name always fails, and only after the element was found and clicked |
| Handlers.PressCommand | main.py:467-470 | a bad key name fails after the active element was asked for, with nothing else issued |
| Handlers.InsertCommand | main.py:472-613 | the scroll into view may fail unnoticed: the command fails iff the insertion fails |
| Handlers.DragDropCommand | main.py:615-618 | an unknown source strategy fails before any request |
| Handlers.DragOffsetCommand | main.py:620-622 | a non-integer offset is reported after the element lookup |
| Handlers.IntPair | main.py:649-650 | both numbers must parse, the first checked first, with no request issued |
| Handlers.OffsetCommand | main.py:715-717 | a bad number issues nothing; success issues exactly one resize or scroll with the parsed numbers |
| Handlers.FrameIndexCommand | main.py:657-658 | a non-integer index fails before any request |
| Handlers.WindowLatestCommand | main.py:667-669 | fails with an `IndexError` iff the browser lists no windows; success switches to the last one |
| Handlers.WindowIndexCommand | main.py:671-676 | out of range iff the index parses, the windows are listed and the index is not in `0..count-1`; success switches to that window |
| Handlers.WaitCommand | main.py:682-700 | the timeout is parsed first, then a timeout `float` cannot hold raises `OverflowError`, and only then is the strategy resolved; success is one wait with the defaulted timeout, strategy and condition |
| Handlers.WaitOverflowBeforeStrategy | main.py:412-413 | an integer timeout of magnitude 2^1024 - 2^970 or more ends the command with an uncaught `OverflowError`, whatever strategy is named |
| Handlers.ScrollIntoViewCommand | main.py:711-713 | the scroll uses the given block position |
| Handlers.SelectCommand | main.py:726-737 | an unknown mode fails only after the element was found and wrapped; success needs a valid mode |
| Handlers.UploadCommand | main.py:740-744 | a missing file fails after resolving and testing the path, with no element lookup, and names the resolved path |
| Handlers.ScreenshotCommand | main.py:746-749 | the parent directory is made before anything else |
| Handlers.ScreenshotElementCommand | main.py:751-755 | the parent directory is made before the element lookup |
| Handlers.AssertTextCommand | main.py:762-765 | a failed assertion means the element's text, as read, does not contain the expected text |
| Handlers.AssertPageCommand | main.py:767-774 | one read; fails iff the read fails or its text lacks the expected text |
| Handlers.EmptyExpectationHolds | main.py:767-769 | an empty expectation fails only if the page cannot be read |
| Handlers.PrintRead | main.py:776-801 | success prints exactly the value read; failure prints nothing |
| Handlers.PrintTextCommand | main.py:776-777 | success prints one line |
| Handlers.PrintAttrCommand | main.py:779-780 | success prints one line |
| Handlers.SleepCommand | main.py:810-811 | with nothing issued, more than `SleepLimit` seconds either way raises `OverflowError` and a smaller negative duration `ValueError`; success sleeps for the parsed seconds |
| Integers.SleepLimitIsNanosecondBound | main.py:811 | `SleepLimit` is the largest second count whose nanoseconds fit a signed 64-bit integer, on either side |
| Handlers.RunElement | main.py:437-780 | element commands change only the trace and the output, and only by adding to them |
| Handlers.RunBrowser | main.py:625-679 | navigation and window commands only add to the trace and output; maximize and minimize never fail |
| Handlers.RunPage | main.py:715-774 | page commands only add requests |
| Handlers.RunWait | main.py:682-700 | waits only add requests |
| Handlers.RunSession | main.py:782-823 | `set_var` stores its value, `keep_open` sets the flag, and every other command only adds to the trace and output; echo, pause, keep_open and set_var never fail |
| Handlers.Run | main.py:878-882 | only `set_var` changes the store and only `keep_open` changes the flag; the infallible handlers never fail |
| Executor.SubstituteAll | main.py:849-850 | succeeds iff every word substitutes, giving each word's result in place; the first failing word decides the fault |
| Executor.SubstituteAllPlain | main.py:849-850 | words without `$` pass through unchanged |
| Executor.Parse | main.py:849-876 | the call is the handler of the substituted first word, resolved through the aliases, with the substituted rest normalised; a substitution fault comes first, `UnknownCommand` iff resolution fails, and no fault is a caught kind; a prepared call binds to the handler's signature |
| Executor.PlainWordsParse | main.py:849-876 | words without `$` whose first word resolves to a command parse to that command with its normalised arguments |
| Executor.StoredCommandName | main.py:849-853 | the command name is substituted before it is resolved: `${c}`, with `c` stored as a command name, runs that command |
| Executor.StoredClickExample | main.py:849-853 | with `c` stored as `click`, the words `${c} ID x` make a click on `ID x` |
| Executor.NormalizedCallDispatchable | main.py:861-876 | normalised arguments bind to the handler's signature, and without a join they are the words unchanged, so a `set_var` value stays free of placeholders |
| Executor.Prepare | main.py:840-876 | a line needs no call iff it is blank, a comment or has no words; it is malformed iff `shlex` refuses it |
| Executor.Dispatch | main.py:855-913 | a fault that survives the handler is one the policy aborts on; the trace and output only grow and a clean store stays clean |
| Executor.RunLine | main.py:839-913 | any fault it raises is one the policy aborts on; the trace and output only grow, `keep_open` once set stays set, and a clean store stays clean |
| Executor.SkippedLineInert | main.py:841-843 | a blank or comment line returns at once and changes nothing |
| Executor.EarlyFaultInert | main.py:845-876 | a fault raised before `func(*args)` ends the line with the state untouched: no request, no output |
| Executor.RunLines | main.py:919-921 | an abort names a line of the file and a fault the policy aborts on; trace and output only grow and the store stays free of placeholders |
| Executor.RunFile | main.py:915-921 | a missing file fails iff the path does not exist, before any line runs |
| Executor.RunLinesAppend | main.py:919-921 | running two blocks of lines is running the first, then the second from where the first ended, unless the first aborted |
| Executor.AbortIgnoresRest | main.py:919-921 | lines after the one that aborted are never run |
| Executor.InertLines | main.py:841-843 | blank lines and comments leave the state alone in either mode |
| Executor.UndefinedVariableAborts | main.py:849-855 | an undefined variable ends the run in both modes, before any request, with a key the store lacks |
| Executor.IgnoredFaultContinues | main.py:884-913 | ignoring errors, a caught fault from the handler is logged and the run goes on from the handler's state; a `KeyError` is logged by its missing key, a Selenium exception against the stripped line |
| Executor.OtherFaultsAbort | main.py:884-913 | in strict mode, and for uncaught faults, the handler's fault ends the run with its requests kept |
| Scenario.ClickSkipped | main.py:889-891 | ignoring errors, a click on a missing element is logged against its line after one lookup |
| Scenario.ClickRaised | main.py:892-893 | in strict mode the same click raises after one lookup |
| Scenario.IgnoreModeCompletes | main.py:839-921 | the three-line script completes ignoring errors: the click is logged as skipped and `echo` still prints |
| Scenario.StrictModeAborts | main.py:839-921 | in strict mode the script ends at line 1 and `echo` never runs |

## Left out

- `shlex.split` is a parameter of the configuration: a function from a line to its words, or none when a quote or escape is left open. The quoting rules are not modelled.
- Case mapping (`lower`/`upper`) is ASCII only. Unicode case mapping is not modelled.
- `parse_int` accepts Python's ASCII digit forms only: `int`'s white space, a sign, and digits with single underscores. That white space is tab through carriage return, space, and the non-ASCII `str.isspace` characters, which `int` reads as spaces. Non-ASCII digits are not modelled.
- `OverflowError` is modelled with CPython's limits on a platform with IEEE doubles and a 64-bit `_PyTime_t`, and with Selenium 4's `WebDriverWait`, which converts its timeout with `float`. The configured default timeout is checked the same way.
- `parse_int` refuses more than 4300 digits, the default of CPython 3.11 and later. A limit changed through `PYTHONINTMAXSTRDIGITS` or `sys.set_int_max_str_digits` is not modelled. Neither are older interpreters, which have no limit.
- `Path.expanduser`, `resolve` and `exists`, and making directories, are requests answered by the environment oracle. The file system is not modelled.
- `run_file` takes the file's lines, or none when the file does not exist. Reading and decoding the file is not modelled.
- Messages and their Chinese texts are not modelled. A fault records only its kind and the value it names.
- The `RuntimeError`/`ValueError` that `run_line` raises in strict mode in place of the caught exception is modelled as the original fault ending the run. The message text is the only difference.
- `main`, `get_driver`, `build_driver` and the browser provisioning helpers (main.py:218-385) are not modelled. They concern I/O and the browser's start-up.
- `parse_float` is not modelled: no registered command uses it.
- `cmd_wait_url_contains` and `cmd_wait_title_contains` (main.py:702-708) are not in the command table, so no script can reach them.
- The reflective call's `RuntimeError` for a missing method (main.py:879-880) is not modelled: every registry entry names an existing handler.
- Python's recursion limit for `_var_filter` is a depth bound. Reaching it raises `SubstitutionTooDeep`.
- Selenium's exception hierarchy is flattened to the five caught classes plus one "other" class. Subclasses of the caught classes are assumed to be reported as the class the `except` clause names.
- The JavaScript bodies of `write_ce` and `write_js`, and everything the browser does, are single requests answered by the oracle.
- `time.sleep` and `input` are requests to the oracle. `pause` swallows only `EOFError`; its other exceptions are not modelled.
- `cookie_get` prints the cookie dictionary. The model prints the text the oracle returns.
- Handlers.RunElement: states only that element commands add to the trace and output. Each command's request order is stated by the per-command member it calls.
- Handlers.RunBrowser: states only that the state grows and which commands cannot fail. The per-command members carry the details.

### Where the code and its documentation differ

- `AssertionError` and `ValueError` are not caught by `run_line`, even in ignore-error mode. Failed assertions, unknown commands, argument-count errors, bad integers, unknown key names and unknown select modes therefore end the run in both modes. The model follows the code.
- `assert_url_contains` with no argument does not fail the arity check. Its join rule supplies one empty argument, which every URL contains.
- In `cookies_set` the results of `replace(" ", "")` are discarded, so spaces in cookie names and values are kept. The model keeps them.

=== FILE: arguments.dfy ===
/** Argument normalisation in `run_line` (main.py:860-876): the join-from rule
    that folds trailing arguments into one, then the arity check. */
module Arguments {
  import opened Wrappers
  import opened Faults
  import opened Registry
  import Text

  /** `join_rest(parts, start)` (main.py:275-276): the parts from `start` on,
      space-separated, or the empty string when there are none. */
  function JoinRest(parts: seq<string>, start: nat): (r: string)
    ensures start >= |parts| ==> r == ""
  {
    if |parts| > start then Text.JoinSpace(parts[start..]) else ""
  }

  /** Joining loses nothing when no part contains a space: splitting the
      joined text on spaces gives the parts back. */
  lemma JoinRestSplits(parts: seq<string>, start: nat)
    requires start < |parts|
    requires forall k | start <= k < |parts| :: ' ' !in parts[k]
    ensures Text.Split(JoinRest(parts, start), ' ') == parts[start..]
  {
    Text.SplitJoin(parts[start..], ' ');
  }

  /** The join-from rule of main.py:864-869. */
  function JoinTail(spec: CommandSpec, args: seq<string>): (r: Result<seq<string>, Fault>)
    ensures spec.joinFrom.None? ==> r == Ok(args)
    ensures spec.joinFrom.Some? ==> (r.Err? <==> |args| < spec.joinFrom.value)
    ensures r.Err? ==> r.error == InsufficientArguments
    ensures r.Ok? && spec.joinFrom.Some? ==>
              var jf := spec.joinFrom.value;
              && jf <= |args| && jf <= |r.value|
              && r.value[..jf] == args[..jf]
              && (|r.value| == jf || |r.value| == jf + 1)
              && (|r.value| == jf + 1 ==> r.value[jf] == JoinRest(args, jf))
              && (|r.value| == jf + 1 <==> JoinRest(args, jf) != "" || spec.minArgs as int - jf == 1)
  {
    match spec.joinFrom
    case None => Ok(args)
    case Some(jf) =>
      if |args| < jf then Err(InsufficientArguments)
      else
        var head := args[..jf];
        var tail := JoinRest(args, jf);
        Ok(head + (if tail != "" || spec.minArgs as int - |head| == 1 then [tail] else []))
  }

  /** The tail is non-empty exactly when some trailing argument is non-empty. */
  lemma {:induction false} JoinSpaceEmpty(parts: seq<string>)
    requires |parts| > 0
    ensures Text.JoinSpace(parts) == "" <==> |parts| == 1 && parts[0] == ""
  {
    if |parts| > 1 {
      assert |Text.JoinSpace(parts)| > 0 by {
        assert Text.JoinSpace(parts) == parts[0] + [' '] + Text.JoinSpace(parts[1..]);
      }
    }
  }

  /** The arity check of main.py:871-876. */
  function CheckArity(spec: CommandSpec, args: seq<string>): (r: Result<seq<string>, Fault>)
    ensures r.Ok? <==> ArityOk(spec, |args|)
    ensures r.Ok? ==> r.value == args
    ensures r.Err? ==> (r.error == InsufficientArguments <==> |args| < spec.minArgs)
    ensures r.Err? ==> r.error == InsufficientArguments || r.error == TooManyArguments
  {
    if |args| < spec.minArgs then Err(InsufficientArguments)
    else if spec.maxArgs.Some? && |args| > spec.maxArgs.value then Err(TooManyArguments)
    else Ok(args)
  }

  /** Everything between the registry lookup and the reflective call. */
  function Normalize(spec: CommandSpec, args: seq<string>): (r: Result<seq<string>, Fault>)
    ensures r.Ok? ==> ArityOk(spec, |r.value|)
    ensures r.Ok? && spec.joinFrom.None? ==> r.value == args
    ensures r.Err? ==> r.error == InsufficientArguments || r.error == TooManyArguments
    ensures var j := JoinTail(spec, args);
            && (j.Err? ==> r == Err(InsufficientArguments))
            && (j.Ok? ==> (r.Ok? <==> ArityOk(spec, |j.value|)))
            && (j.Ok? && r.Ok? ==> r.value == j.value)
            && (j.Ok? && r.Err? ==> (r.error == InsufficientArguments <==> |j.value| < spec.minArgs))
  {
    var joined :- JoinTail(spec, args);
    CheckArity(spec, joined)
  }

  /** Without a join, the arguments reach the handler as written exactly when
      their count is within the entry's bounds; too few and too many are told
      apart by the count alone. */
  lemma PlainArity(spec: CommandSpec, args: seq<string>)
    requires spec.joinFrom.None?
    ensures Normalize(spec, args).Ok? <==> ArityOk(spec, |args|)
    ensures Normalize(spec, args).Ok? ==> Normalize(spec, args).value == args
    ensures |args| < spec.minArgs ==> Normalize(spec, args) == Err(InsufficientArguments)
    ensures spec.minArgs <= |args| && !ArityOk(spec, |args|) ==> Normalize(spec, args) == Err(TooManyArguments)
  {
  }

  /** Every argument list that survives normalisation binds to the handler's
      Python signature: the reflective call never raises `TypeError`. */
  lemma NormalizedFitsSignature(h: Handler, args: seq<string>)
    requires Normalize(SpecOf(h), args).Ok?
    ensures Accepts(SignatureOf(h), |Normalize(SpecOf(h), args).value|)
  {
    ArityMatchesSignature(h, |Normalize(SpecOf(h), args).value|);
  }

  /** In the registry, a joining command always keeps its joined argument, even
      when it is empty, and then passes the arity check: the branch that drops
      an empty tail is never taken. */
  lemma RegistryJoinKeepsTail(h: Handler, args: seq<string>)
    requires SpecOf(h).joinFrom.Some? && |args| >= SpecOf(h).joinFrom.value
    ensures var jf := SpecOf(h).joinFrom.value;
            Normalize(SpecOf(h), args) == Ok(args[..jf] + [JoinRest(args, jf)])
  {
    RegistryWellFormed(h);
  }

  /** A joining command fails only for want of the arguments before the join. */
  lemma RegistryJoinFails(h: Handler, args: seq<string>)
    requires SpecOf(h).joinFrom.Some?
    ensures Normalize(SpecOf(h), args).Err? <==> |args| < SpecOf(h).joinFrom.value
  {
    RegistryWellFormed(h);
  }

  /** An empty tail is dropped when the entry does not need it, so a join
      position equal to `min_args` admits exactly the head. */
  lemma EmptyTailDropped(spec: CommandSpec, args: seq<string>)
    requires spec.joinFrom.Some? && |args| == spec.joinFrom.value
    requires spec.minArgs as int - spec.joinFrom.value != 1
    ensures JoinTail(spec, args) == Ok(args)
  {
    var jf := spec.joinFrom.value;
    assert JoinRest(args, jf) == "";
    assert args[..jf] + [] == args;
  }

  /** `assert_text ID foo hello world` passes `["ID", "foo", "hello world"]`;
      `assert_url_contains` with no argument passes one empty string. */
  lemma NormalizeExamples()
    ensures Normalize(SpecOf(AssertText), ["ID", "foo", "hello", "world"]) == Ok(["ID", "foo", "hello world"])
    ensures Normalize(SpecOf(AssertUrlContains), []) == Ok([""])
    ensures Normalize(SpecOf(AssertText), ["ID"]) == Err(InsufficientArguments)
    ensures Normalize(SpecOf(Click), ["ID", "a", "b"]) == Err(TooManyArguments)
  {
    var args := ["ID", "foo", "hello", "world"];
    assert args[2..] == ["hello", "world"];
    assert Text.JoinSpace(["hello", "world"]) == "hello world";
    assert args[..2] + ["hello world"] == ["ID", "foo", "hello world"];
  }
}

=== FILE: cookies.dfy ===
/** The parsing half of `cmd_cookies_set` (main.py:789-797): `name:value`
    entries separated by `;`. */
module Cookies {
  import opened Wrappers
  import opened Faults
  import Text

  datatype Cookie = Cookie(name: string, value: string)

  /** One entry: it must split on `:` into exactly two parts, which are kept
      as they are (the `replace(" ", "")` results at main.py:795-796 are
      discarded, so spaces survive). */
  function ParseEntry(entry: string): (r: Result<Cookie, Fault>)
    ensures r.Ok? ==> ':' !in r.value.name && ':' !in r.value.value
    ensures r.Err? ==> r.error == MalformedCookie(entry)
  {
    var parts := Text.Split(entry, ':');
    if |parts| != 2 then Err(MalformedCookie(entry)) else Ok(Cookie(parts[0], parts[1]))
  }

  function RenderEntry(c: Cookie): string {
    c.name + ":" + c.value
  }

  /** An entry is exactly the text of the cookie it parses to. */
  lemma ParseEntryRoundTrip(c: Cookie, entry: string)
    ensures ParseEntry(entry) == Ok(c) <==> entry == RenderEntry(c) && ':' !in c.name && ':' !in c.value
  {
    if ParseEntry(entry) == Ok(c) {
      Text.JoinSplit(entry, ':');
      var parts := Text.Split(entry, ':');
      assert parts[1..] == [parts[1]];
      assert Text.Join(parts, ':') == parts[0] + [':'] + parts[1];
    }
    if entry == RenderEntry(c) && ':' !in c.name && ':' !in c.value {
      assert Text.Join([c.name, c.value], ':') == entry by {
        assert [c.name, c.value][1..] == [c.value];
      }
      Text.SplitJoin([c.name, c.value], ':');
    }
  }

  /** The cookies added before the loop stops, and the entry that stopped it. */
  datatype Batch = Batch(cookies: seq<Cookie>, malformed: Option<string>)

  /** The loop of main.py:790-797 over the entries: each well-formed entry
      yields its cookie in order, and the first malformed one ends the loop. */
  function ParseEntries(entries: seq<string>): (r: Batch)
    ensures |r.cookies| <= |entries|
    ensures forall i | 0 <= i < |r.cookies| :: ParseEntry(entries[i]) == Ok(r.cookies[i])
    ensures r.malformed.None? ==> |r.cookies| == |entries|
    ensures r.malformed.Some? ==> |r.cookies| < |entries| && r.malformed.value == entries[|r.cookies|]
                                  && ParseEntry(entries[|r.cookies|]).Err?
  {
    if entries == [] then Batch([], None)
    else
      match ParseEntry(entries[0])
      case Err(_) => Batch([], Some(entries[0]))
      case Ok(c) =>
        var rest := ParseEntries(entries[1..]);
        Batch([c] + rest.cookies, rest.malformed)
  }

  /** `values.split(';')` followed by the loop. */
  function ParseCookies(values: string): Batch {
    ParseEntries(Text.Split(values, ';'))
  }

  function Entries(cs: seq<Cookie>): (es: seq<string>)
    ensures |es| == |cs|
    ensures forall i | 0 <= i < |cs| :: es[i] == RenderEntry(cs[i])
  {
    if cs == [] then [] else [RenderEntry(cs[0])] + Entries(cs[1..])
  }

  function RenderCookies(cs: seq<Cookie>): string {
    Text.Join(Entries(cs), ';')
  }

  /** A cookie that `cookies_set` can carry: no `:` or `;` in name or value. */
  predicate Plain(c: Cookie) {
    ':' !in c.name && ':' !in c.value && ';' !in c.name && ';' !in c.value
  }

  /** Rendering then parsing gives the cookies back, none malformed. */
  lemma ParseRendered(cs: seq<Cookie>)
    requires |cs| >= 1
    requires forall i | 0 <= i < |cs| :: Plain(cs[i])
    ensures ParseCookies(RenderCookies(cs)) == Batch(cs, None)
  {
    var entries := Entries(cs);
    forall i | 0 <= i < |entries|
      ensures ';' !in entries[i]
    {
      assert entries[i] == cs[i].name + [':'] + cs[i].value;
    }
    Text.SplitJoin(entries, ';');
    forall i | 0 <= i < |cs|
      ensures ParseEntry(entries[i]) == Ok(cs[i])
    {
      ParseEntryRoundTrip(cs[i], entries[i]);
    }
    ParseAllWellFormed(entries, cs);
  }

  lemma {:induction false} ParseAllWellFormed(entries: seq<string>, cs: seq<Cookie>)
    requires |entries| == |cs|
    requires forall i | 0 <= i < |cs| :: ParseEntry(entries[i]) == Ok(cs[i])
    ensures ParseEntries(entries) == Batch(cs, None)
  {
    if entries != [] {
      ParseAllWellFormed(entries[1..], cs[1..]);
      assert cs == [cs[0]] + cs[1..];
    }
  }

  /** A text whose entries all parse is the rendering of its cookies. */
  lemma RenderParsed(values: string)
    requires ParseCookies(values).malformed.None?
    ensures RenderCookies(ParseCookies(values).cookies) == values
  {
    var entries := Text.Split(values, ';');
    var cs := ParseCookies(values).cookies;
    var rendered := Entries(cs);
    forall i | 0 <= i < |cs|
      ensures rendered[i] == entries[i]
    {
      ParseEntryRoundTrip(cs[i], entries[i]);
    }
    assert rendered == entries;
    Text.JoinSplit(values, ';');
  }

  /** A trailing `;` leaves an empty last entry, which is malformed: the
      cookies before it are added and then the command fails. */
  lemma TrailingSeparatorFails(cs: seq<Cookie>)
    requires |cs| >= 1
    requires forall i | 0 <= i < |cs| :: Plain(cs[i])
    ensures ParseCookies(RenderCookies(cs) + ";") == Batch(cs, Some(""))
  {
    var padded := Entries(cs) + [""];
    assert Text.Join(padded, ';') == RenderCookies(cs) + ";" by {
      JoinAppend(Entries(cs), "", ';');
      assert RenderCookies(cs) + [';'] + "" == RenderCookies(cs) + ";";
    }
    forall i | 0 <= i < |padded|
      ensures ';' !in padded[i]
    {
      if i < |cs| {
        assert padded[i] == cs[i].name + [':'] + cs[i].value;
      }
    }
    Text.SplitJoin(padded, ';');
    forall i | 0 <= i < |cs|
      ensures ParseEntry(padded[i]) == Ok(cs[i])
    {
      ParseEntryRoundTrip(cs[i], padded[i]);
    }
    assert Text.Split("", ':') == [""];
    StopsAtMalformed(padded, cs);
  }

  lemma {:induction false} StopsAtMalformed(entries: seq<string>, cs: seq<Cookie>)
    requires |entries| == |cs| + 1
    requires forall i | 0 <= i < |cs| :: ParseEntry(entries[i]) == Ok(cs[i])
    requires ParseEntry(entries[|cs|]).Err?
    ensures ParseEntries(entries) == Batch(cs, Some(entries[|cs|]))
  {
    if cs != [] {
      StopsAtMalformed(entries[1..], cs[1..]);
      assert cs == [cs[0]] + cs[1..];
    }
  }

  lemma {:induction false} JoinAppend(parts: seq<string>, last: string, sep: char)
    requires |parts| >= 1
    ensures Text.Join(parts + [last], sep) == Text.Join(parts, sep) + [sep] + last
  {
    if |parts| == 1 {
      assert (parts + [last])[1..] == [last];
    } else {
      assert (parts + [last])[1..] == parts[1..] + [last];
      JoinAppend(parts[1..], last, sep);
    }
  }

  /** `a:1;b: 2` adds `a`=`1` and `b`=` 2`, space kept. */
  lemma ParseCookiesExample()
    ensures ParseCookies("a:1;b: 2") == Batch([Cookie("a", "1"), Cookie("b", " 2")], None)
  {
    var cs := [Cookie("a", "1"), Cookie("b", " 2")];
    assert RenderCookies(cs) == "a:1;b: 2" by {
      assert RenderEntry(cs[0]) == "a:1";
      assert RenderEntry(cs[1]) == "b: 2";
      assert Entries(cs) == ["a:1", "b: 2"];
      assert Entries(cs)[1..] == ["b: 2"];
    }
    ParseRendered(cs);
  }
}

=== FILE: environment.dfy ===
/** What a handler can ask of the outside world — the Selenium driver, the file
    system, the clock and the console — and the interpreter state threaded
    through a run. The world is an oracle: it answers each request given every
    request issued before it, so no behaviour of the browser is assumed. */
module Environment {
  import opened Wrappers
  import opened Faults
  import Keys
  import Cookies

  /** A handle on an element returned by `find_element`. */
  type Element = nat

  /** The expected conditions of the `cmd_wait_*` handlers (main.py:682-700). */
  datatype Condition = Present | Visible | Clickable | Invisible | TextPresent(text: string)

  /** The three `Select` methods of `cmd_select` (main.py:729-734). */
  datatype Choice = ByVisibleText(text: string) | ByValue(value: string) | ByIndex(index: int)

  /** One request to the world, in the order the handlers issue them. */
  datatype Action =
    | FindElement(strategy: Keys.Strategy, selector: string)
    | ClickOn(el: Element)
    | ContextClick(el: Element)
    | DoubleClick(el: Element)
    | MoveTo(el: Element)
    | ClickByScript(el: Element)
    | ClearField(el: Element)
    | TypeText(el: Element, text: string)
    | TypeKeys(el: Element, items: seq<Keys.KeyItem>)
    | ActiveElement
    | ScrollToCenter(el: Element)
    | InsertEditable(el: Element, text: string)
    | InsertScripted(el: Element, text: string)
    | DragAndDrop(source: Element, target: Element)
    | DragByOffset(el: Element, dx: int, dy: int)
    | Navigate(url: string)
    | GoBack
    | GoForward
    | Reload
    | MaximizeWindow
    | MinimizeWindow
    | SetWindowSize(width: int, height: int)
    | SwitchToFrame(el: Element)
    | SwitchToFrameIndex(index: int)
    | SwitchToParentFrame
    | SwitchToDefaultContent
    | ListWindows
    | SwitchToWindow(position: nat)
    | CloseWindow
    | WaitUntil(seconds: int, strategy: Keys.Strategy, selector: string, condition: Condition)
    | ScrollElement(el: Element, block: string)
    | ScrollByOffset(dx: int, dy: int)
    | ScrollToTop
    | ScrollToBottom
    | WrapSelect(el: Element)
    | ChooseOption(el: Element, choice: Choice)
    | ResolvePath(path: string)
    | PathExists(path: string)
    | AttachFile(el: Element, path: string)
    | MakeParentDirectories(path: string)
    | SaveScreenshot(path: string)
    | SaveElementScreenshot(el: Element, path: string)
    | RunScript(script: string)
    | ReadText(el: Element)
    | ReadUrl
    | ReadTitle
    | ReadAttribute(el: Element, name: string)
    | AddCookie(cookie: Cookies.Cookie)
    | ReadCookie(name: string)
    | DeleteCookie(name: string)
    | DeleteAllCookies
    | SleepFor(seconds: int)
    | AwaitEnter

  /** What a request returns; each handler reads the field its request yields. */
  datatype Value = Value(element: Element, text: string, count: nat, flag: bool)

  datatype Reply = Failed(kind: DriverFault) | Answer(value: Value)

  /** The world: its reply to a request after the given earlier requests. */
  type World = (seq<Action>, Action) -> Reply

  /** A line of console output: a handler's `print`, or the message of a fault
      skipped in ignore-error mode. A skipped `KeyError` is logged with the
      missing key alone; the other skipped faults are logged with the line. */
  datatype Output = Printed(text: string) | Skipped(line: string, fault: Fault) | SkippedKey(key: string)

  /** The interpreter state: the `set_var` store, the `keep_open` flag, every
      request issued so far, and the console. */
  datatype State = State(
    store: map<string, string>,
    keepOpen: bool,
    trace: seq<Action>,
    output: seq<Output>)

  /** A computation's final state, with a value or the fault it raised. The
      state is kept either way: requests issued before a fault stay issued. */
  datatype Exec<T> = Exec(state: State, result: Result<T, Fault>) {
    predicate IsFailure() {
      result.Err?
    }

    function PropagateFailure<U>(): Exec<U>
      requires IsFailure()
    {
      Exec(state, Err(result.error))
    }

    function Extract(): (State, T)
      requires !IsFailure()
    {
      (state, result.value)
    }
  }

  /** Only the trace and the console grow. */
  predicate Extends(st: State, st': State) {
    && st'.store == st.store
    && st'.keepOpen == st.keepOpen
    && st.trace <= st'.trace
    && st.output <= st'.output
  }

  function Raise<T>(st: State, f: Fault): Exec<T> {
    Exec(st, Err(f))
  }

  /** A pure check inside a handler: no request, the check's fault if it fails. */
  function Check<T>(st: State, r: Result<T, Fault>): Exec<T> {
    Exec(st, r)
  }

  /** Issue one request; a failed reply raises the driver's exception. */
  function Ask(world: World, st: State, a: Action): (r: Exec<Value>)
    ensures r.state == st.(trace := st.trace + [a])
    ensures r.IsFailure() <==> world(st.trace, a).Failed?
    ensures r.IsFailure() ==> r.result.error == Driver(world(st.trace, a).kind)
    ensures !r.IsFailure() ==> r.result.value == world(st.trace, a).value
  {
    var st' := st.(trace := st.trace + [a]);
    match world(st.trace, a)
    case Failed(k) => Exec(st', Err(Driver(k)))
    case Answer(v) => Exec(st', Ok(v))
  }

  /** Issue a request whose answer is not used. */
  function Do(world: World, st: State, a: Action): (r: Exec<()>)
    ensures r.state == st.(trace := st.trace + [a])
    ensures r.IsFailure() <==> world(st.trace, a).Failed?
    ensures r.IsFailure() ==> r.result.error == Driver(world(st.trace, a).kind)
  {
    var (st', _) :- Ask(world, st, a);
    Exec(st', Ok(()))
  }

  /** `try: request except Exception: pass` — the request is issued and any
      failure is swallowed. */
  function Attempt(st: State, a: Action): State {
    st.(trace := st.trace + [a])
  }

  function Print(st: State, text: string): State {
    st.(output := st.output + [Printed(text)])
  }
}

=== FILE: executor.dfy ===
/** `run_line` (main.py:839-913) and `run_file` (main.py:915-921): each line
    is stripped, split into words, substituted, resolved, normalised and
    dispatched, and the ignore-error flag decides which faults end the run. */
module Executor {
  import opened Wrappers
  import opened Faults
  import opened Environment
  import Text
  import Placeholders
  import Registry
  import Arguments
  import Handlers

  /** What the interpreter is configured with and what it talks to. `lex`
      stands for `shlex.split(s, posix=True)`: the words of a line, or None
      when a quote or an escape is left open. `depth` bounds the recursion of
      `_var_filter`, as Python's recursion limit does. */
  datatype Config = Config(
    ignoreErrors: bool,
    defaultTimeout: int,
    depth: nat,
    lex: string -> Option<seq<string>>,
    world: World)

  /** A stripped line with nothing to run: blank, or a comment (main.py:841-843). */
  predicate Skippable(s: string) {
    s == [] || s[0] == '#'
  }

  /** The loop of main.py:849-850: every word substituted, left to right; the
      first word that fails ends it with that word's fault. */
  function SubstituteAll(store: map<string, string>, words: seq<string>, depth: nat): (r: Result<seq<string>, Fault>)
    ensures r.Ok? <==> forall i | 0 <= i < |words| :: Placeholders.Substitute(store, words[i], depth).Ok?
    ensures r.Ok? ==> |r.value| == |words|
    ensures r.Ok? ==> forall i | 0 <= i < |words| :: Placeholders.Substitute(store, words[i], depth) == Ok(r.value[i])
    ensures r.Ok? ==> forall i | 0 <= i < |words| :: !Placeholders.HasPlaceholder(r.value[i])
    ensures r.Err? ==> exists i | 0 <= i < |words| ::
                         && (forall j | 0 <= j < i :: Placeholders.Substitute(store, words[j], depth).Ok?)
                         && Placeholders.Substitute(store, words[i], depth) == Err(r.error)
  {
    if words == [] then Ok([])
    else
      var first :- Placeholders.Substitute(store, words[0], depth);
      var rest :- SubstituteAll(store, words[1..], depth);
      assert forall i | 1 <= i < |words| :: words[i] == words[1..][i - 1];
      Ok([first] + rest)
  }

  /** Words without `$` pass through substitution unchanged. */
  lemma SubstituteAllPlain(store: map<string, string>, words: seq<string>, depth: nat)
    requires forall i | 0 <= i < |words| :: '$' !in words[i]
    ensures SubstituteAll(store, words, depth) == Ok(words)
  {
    forall i | 0 <= i < |words|
      ensures Placeholders.Substitute(store, words[i], depth) == Ok(words[i])
    {
      Placeholders.NoDollarUnchanged(store, words[i], depth);
    }
    var r := SubstituteAll(store, words, depth);
    assert r.value == words by {
      assert |r.value| == |words|;
      forall i | 0 <= i < |words|
        ensures r.value[i] == words[i]
      {
        assert Placeholders.Substitute(store, words[i], depth) == Ok(r.value[i]);
      }
    }
  }

  /** A line ready for the reflective call. */
  datatype Call = Call(handler: Registry.Handler, args: seq<string>)

  /** A call `func(*args)` can be made with: the arguments bind to the
      handler's signature, and a value stored by `set_var` is free of
      placeholders. */
  predicate Dispatchable(call: Call) {
    && Registry.Accepts(Registry.SignatureOf(call.handler), |call.args|)
    && (call.handler == Registry.SetVar ==> !Placeholders.HasPlaceholder(call.args[1]))
  }

  /** Normalised arguments of words free of placeholders make a call that
      can be dispatched; without a join they are the words themselves. */
  lemma NormalizedCallDispatchable(h: Registry.Handler, rest: seq<string>)
    requires Arguments.Normalize(Registry.SpecOf(h), rest).Ok?
    requires forall i | 0 <= i < |rest| :: !Placeholders.HasPlaceholder(rest[i])
    ensures Registry.SpecOf(h).joinFrom.None? ==> Arguments.Normalize(Registry.SpecOf(h), rest).value == rest
    ensures Dispatchable(Call(h, Arguments.Normalize(Registry.SpecOf(h), rest).value))
  {
    Arguments.NormalizedFitsSignature(h, rest);
    if h == Registry.SetVar {
      assert Registry.SpecOf(Registry.SetVar).joinFrom.None?;
    }
  }

  /** From the words of a line to the reflective call: substitute every
      word, resolve the first through the aliases and the registry, and
      normalise the rest. None of these faults is one the `except` clauses
      catch: the substitution runs before the `try`, and the others are
      `ValueError`s. */
  function Parse(store: map<string, string>, depth: nat, words: seq<string>): (r: Result<Call, Fault>)
    requires words != []
    ensures r.Err? ==> !Caught(r.error)
    ensures r.Ok? ==> Dispatchable(r.value)
    ensures r.Ok? && Registry.SpecOf(r.value.handler).joinFrom.None? ==>
              forall i | 0 <= i < |r.value.args| :: !Placeholders.HasPlaceholder(r.value.args[i])
    ensures SubstituteAll(store, words, depth).Err? ==> r == Err(SubstituteAll(store, words, depth).error)
    ensures var sub := SubstituteAll(store, words, depth);
            sub.Ok? ==>
              var name := sub.value[0];
              && (Registry.Lookup(Registry.Resolve(name)).None? <==> r == Err(UnknownCommand(name)))
              && (Registry.Lookup(Registry.Resolve(name)).Some? ==>
                    var h := Registry.Lookup(Registry.Resolve(name)).value;
                    var n := Arguments.Normalize(Registry.SpecOf(h), sub.value[1..]);
                    && (r.Ok? <==> n.Ok?)
                    && (r.Ok? ==> r.value == Call(h, n.value))
                    && (r.Err? ==> r.error == n.error))
  {
    var parts :- SubstituteAll(store, words, depth);
    match Registry.Lookup(Registry.Resolve(parts[0]))
    case None => Err(UnknownCommand(parts[0]))
    case Some(h) =>
      var rest := parts[1..];
      var args :- Arguments.Normalize(Registry.SpecOf(h), rest);
      NormalizedCallDispatchable(h, rest);
      Ok(Call(h, args))
  }

  /** Words without `$` whose first names a command parse to that command
      with the normalised rest. */
  lemma PlainWordsParse(store: map<string, string>, depth: nat, words: seq<string>, h: Registry.Handler)
    requires words != [] && forall i | 0 <= i < |words| :: '$' !in words[i]
    requires Registry.Lookup(Registry.Resolve(words[0])) == Some(h)
    requires Arguments.Normalize(Registry.SpecOf(h), words[1..]).Ok?
    ensures Parse(store, depth, words) == Ok(Call(h, Arguments.Normalize(Registry.SpecOf(h), words[1..]).value))
  {
    SubstituteAllPlain(store, words, depth);
  }

  /** The command name is substituted like any other word before it is
      resolved: `${c}` with `c` stored as a command name runs that command. */
  lemma StoredCommandName(store: map<string, string>, depth: nat, c: char, rest: seq<string>, h: Registry.Handler)
    requires Placeholders.IsNameStart(c) && [c] in store && '$' !in store[[c]]
    requires depth >= 1
    requires forall i | 0 <= i < |rest| :: '$' !in rest[i]
    requires Registry.Lookup(Registry.Resolve(store[[c]])) == Some(h)
    requires Arguments.Normalize(Registry.SpecOf(h), rest).Ok?
    ensures Parse(store, depth, ["${" + [c] + "}"] + rest) == Ok(Call(h, Arguments.Normalize(Registry.SpecOf(h), rest).value))
  {
    var v := store[[c]];
    StoredNameWords(store, depth, c, rest);
    assert ([v] + rest)[1..] == rest;
  }

  /** `${c}` followed by plain words substitutes to the stored value and the words. */
  lemma StoredNameWords(store: map<string, string>, depth: nat, c: char, rest: seq<string>)
    requires Placeholders.IsNameStart(c) && [c] in store && '$' !in store[[c]]
    requires depth >= 1
    requires forall i | 0 <= i < |rest| :: '$' !in rest[i]
    ensures SubstituteAll(store, ["${" + [c] + "}"] + rest, depth) == Ok([store[[c]]] + rest)
  {
    var v := store[[c]];
    var words := ["${" + [c] + "}"] + rest;
    StoredNameSubstituted(store, depth, c);
    SubstituteAllPlain(store, rest, depth);
    forall i | 0 <= i < |words|
      ensures Placeholders.Substitute(store, words[i], depth) == Ok(([v] + rest)[i])
    {
      if i > 0 {
        assert words[i] == rest[i - 1];
      }
    }
    var sub := SubstituteAll(store, words, depth);
    assert sub.value == [v] + rest;
  }

  /** `${c}` becomes the stored value when that value holds no `$`. */
  lemma StoredNameSubstituted(store: map<string, string>, depth: nat, c: char)
    requires Placeholders.IsNameStart(c) && [c] in store && '$' !in store[[c]]
    requires depth >= 1
    ensures Placeholders.Substitute(store, "${" + [c] + "}", depth) == Ok(store[[c]])
  {
    var token := "${" + [c] + "}";
    var v := store[[c]];
    Placeholders.LeadingPlaceholder(token, v);
    assert token[4..] == [];
    assert v + token[4..] == v;
    Placeholders.SubstituteStep(store, token, depth);
    Placeholders.NoDollarUnchanged(store, v, depth - 1);
  }

  /** With `c` stored as `click`, the line `${c} ID x` is a click. */
  lemma StoredClickExample()
    ensures Parse(map["c" := "click"], 8, ["${c}", "ID", "x"]) == Ok(Call(Registry.Click, ["ID", "x"]))
  {
    assert Registry.Resolve("click") == "click" by {
      Text.LowerOfLowerCase("click");
    }
    assert Arguments.Normalize(Registry.SpecOf(Registry.Click), ["ID", "x"]) == Ok(["ID", "x"]);
    assert "${" + ['c'] + "}" == "${c}";
    assert ["${c}"] + ["ID", "x"] == ["${c}", "ID", "x"];
    StoredCommandName(map["c" := "click"], 8, 'c', ["ID", "x"], Registry.Click);
  }

  /** Everything `run_line` does before `func(*args)` (main.py:840-876). */
  function Prepare(cfg: Config, store: map<string, string>, line: string): (r: Result<Option<Call>, Fault>)
    ensures var s := Text.Strip(line);
            r.Ok? && r.value.None? <==> Skippable(s) || cfg.lex(s) == Some([])
    ensures var s := Text.Strip(line);
            r == Err(MalformedLine) <==> !Skippable(s) && cfg.lex(s).None?
    ensures r.Err? ==> !Caught(r.error)
    ensures r.Ok? && r.value.Some? ==> Dispatchable(r.value.value)
    ensures r.Ok? && r.value.Some? ==>
              var call := r.value.value;
              Registry.SpecOf(call.handler).joinFrom.None? ==>
                forall i | 0 <= i < |call.args| :: !Placeholders.HasPlaceholder(call.args[i])
  {
    var s := Text.Strip(line);
    if Skippable(s) then Ok(None)
    else
      match cfg.lex(s)
      case None => Err(MalformedLine)
      case Some(words) =>
        if words == [] then Ok(None)
        else
          var call :- Parse(store, cfg.depth, words);
          Ok(Some(call))
  }

  /** Every stored value is free of placeholders. */
  predicate StoreClean(store: map<string, string>) {
    forall k | k in store :: !Placeholders.HasPlaceholder(store[k])
  }

  /** The message `run_line` logs for a fault it skips: the `KeyError`
      clause (main.py:884-886) prints the exception, which names the missing
      key, and the five Selenium clauses (main.py:888-913) print the stripped
      line. */
  function SkipNote(line: string, f: Fault): (o: Output)
    ensures f.UnknownStrategy? ==> o == SkippedKey(f.key)
    ensures !f.UnknownStrategy? ==> o == Skipped(Text.Strip(line), f)
  {
    if f.UnknownStrategy? then SkippedKey(f.key) else Skipped(Text.Strip(line), f)
  }

  /** `func(*args)` inside the `try` of main.py:855-913. A fault from the
      handler is logged, by its key or against the line, and the run
      continues when ignoring errors and the fault is one of the caught kinds;
      every other fault ends the run. */
  function Dispatch(cfg: Config, line: string, call: Call, st: State): (r: Exec<()>)
    requires Dispatchable(call)
    ensures r.IsFailure() ==> Classify(r.result.error, cfg.ignoreErrors) == Abort
    ensures st.trace <= r.state.trace && st.output <= r.state.output
    ensures st.keepOpen ==> r.state.keepOpen
    ensures StoreClean(st.store) ==> StoreClean(r.state.store)
  {
    var d := Handlers.Run(cfg.world, cfg.defaultTimeout, call.handler, call.args, st);
    if !d.IsFailure() then d
    else
      match Classify(d.result.error, cfg.ignoreErrors)
      case Proceed => Exec(d.state.(output := d.state.output + [SkipNote(line, d.result.error)]), Ok(()))
      case Abort => d
  }

  /** `run_line`. */
  function RunLine(cfg: Config, line: string, st: State): (r: Exec<()>)
    ensures r.IsFailure() ==> Classify(r.result.error, cfg.ignoreErrors) == Abort
    ensures st.trace <= r.state.trace && st.output <= r.state.output
    ensures st.keepOpen ==> r.state.keepOpen
    ensures StoreClean(st.store) ==> StoreClean(r.state.store)
  {
    match Prepare(cfg, st.store, line)
    case Err(f) => Exec(st, Err(f))
    case Ok(None) => Exec(st, Ok(()))
    case Ok(Some(call)) =>
      Dispatch(cfg, line, call, st)
  }

  /** A blank or comment line changes nothing. */
  lemma SkippedLineInert(cfg: Config, line: string, st: State)
    requires Skippable(Text.Strip(line))
    ensures RunLine(cfg, line, st) == Exec(st, Ok(()))
  {
  }

  /** A fault raised before the call (main.py:845-876) leaves the state as
      it was: nothing was requested and nothing printed. */
  lemma EarlyFaultInert(cfg: Config, line: string, st: State)
    requires Prepare(cfg, st.store, line).Err?
    ensures RunLine(cfg, line, st) == Exec(st, Err(Prepare(cfg, st.store, line).error))
  {
  }

  /** How a run of lines ends: every line ran, or line `line` (counted from
      zero) raised a fault that ended the run. */
  datatype Outcome = Completed(state: State) | Aborted(line: nat, fault: Fault, state: State) {
    /** The same outcome for lines counted from `n` further on. */
    function Shift(n: nat): (o: Outcome)
      ensures o.Aborted? <==> Aborted?
      ensures o.Aborted? ==> o.line == line + n && o.fault == fault
      ensures o.state == state
    {
      if Aborted? then Aborted(line + n, fault, state) else this
    }
  }

  /** The loop of `run_file` (main.py:919-921): `run_line` on each line in
      order until one raises. */
  function RunLines(cfg: Config, lines: seq<string>, st: State): (r: Outcome)
    ensures r.Aborted? ==> r.line < |lines| && Classify(r.fault, cfg.ignoreErrors) == Abort
    ensures st.trace <= r.state.trace && st.output <= r.state.output
    ensures st.keepOpen ==> r.state.keepOpen
    ensures StoreClean(st.store) ==> StoreClean(r.state.store)
    decreases |lines|
  {
    if lines == [] then Completed(st)
    else
      var first := RunLine(cfg, lines[0], st);
      if first.IsFailure() then Aborted(0, first.result.error, first.state)
      else RunLines(cfg, lines[1..], first.state).Shift(1)
  }

  /** `run_file`: a missing file raises `FileNotFoundError` before any line
      runs. The file system is a parameter: `lines` is the file's lines, or
      None when the path does not exist. */
  function RunFile(cfg: Config, path: string, lines: Option<seq<string>>, st: State): (r: Result<Outcome, Fault>)
    ensures r.Err? <==> lines.None?
    ensures r.Err? ==> r.error == FileNotFound(path)
    ensures r.Ok? ==> StoreClean(st.store) ==> StoreClean(r.value.state.store)
  {
    match lines
    case None => Err(FileNotFound(path))
    case Some(ls) => Ok(RunLines(cfg, ls, st))
  }

  /** Running two files' worth of lines is running the first, then the second
      from where the first left off, unless the first aborted. */
  lemma {:induction false} RunLinesAppend(cfg: Config, a: seq<string>, b: seq<string>, st: State)
    ensures var first := RunLines(cfg, a, st);
            first.Aborted? ==> RunLines(cfg, a + b, st) == first
    ensures var first := RunLines(cfg, a, st);
            first.Completed? ==> RunLines(cfg, a + b, st) == RunLines(cfg, b, first.state).Shift(|a|)
    decreases |a|
  {
    if a == [] {
      assert a + b == b;
    } else {
      var head := RunLine(cfg, a[0], st);
      Text.ConcatTail(a, b);
      if !head.IsFailure() {
        RunLinesAppend(cfg, a[1..], b, head.state);
        var rest := RunLines(cfg, a[1..], head.state);
        if rest.Completed? {
          var tail := RunLines(cfg, b, rest.state);
          assert tail.Shift(|a| - 1).Shift(1) == tail.Shift(|a|);
        }
      }
    }
  }

  /** Lines after the one that aborted are never run. */
  lemma AbortIgnoresRest(cfg: Config, lines: seq<string>, st: State, k: nat)
    requires RunLines(cfg, lines, st).Aborted?
    requires RunLines(cfg, lines, st).line < k <= |lines|
    ensures RunLines(cfg, lines[..k], st) == RunLines(cfg, lines, st)
  {
    RunLinesAppend(cfg, lines[..k], lines[k..], st);
    Text.PrefixAndRest(lines, k);
  }

  /** Blank lines and comments leave the state alone, in either mode. */
  lemma {:induction false} InertLines(cfg: Config, lines: seq<string>, st: State)
    requires forall i | 0 <= i < |lines| :: Skippable(Text.Strip(lines[i]))
    ensures RunLines(cfg, lines, st) == Completed(st)
    decreases |lines|
  {
    if lines != [] {
      SkippedLineInert(cfg, lines[0], st);
      InertLines(cfg, lines[1..], st);
    }
  }

  /** An undefined variable anywhere on a line ends the run in either mode:
      substitution happens before the `try` (main.py:849-855), so no request
      is issued and nothing is logged. */
  lemma UndefinedVariableAborts(cfg: Config, line: string, st: State, words: seq<string>)
    requires !Skippable(Text.Strip(line)) && cfg.lex(Text.Strip(line)) == Some(words) && words != []
    requires SubstituteAll(st.store, words, cfg.depth).Err?
    ensures RunLine(cfg, line, st) == Exec(st, Err(SubstituteAll(st.store, words, cfg.depth).error))
    ensures var f := RunLine(cfg, line, st).result.error;
            f == SubstitutionTooDeep || (f.UndefinedVariable? && f.name !in st.store)
  {
    var f := SubstituteAll(st.store, words, cfg.depth).error;
    var i :| 0 <= i < |words| && Placeholders.Substitute(st.store, words[i], cfg.depth) == Err(f);
    Placeholders.SubstituteErrors(st.store, words[i], cfg.depth);
    EarlyFaultInert(cfg, line, st);
  }

  /** The policy of main.py:884-913 for a fault raised by the handler: in
      ignore-error mode a caught fault is logged (a `KeyError` by its key,
      a Selenium exception against the stripped line) and the run
      goes on from the handler's state... */
  lemma IgnoredFaultContinues(cfg: Config, line: string, st: State)
    requires cfg.ignoreErrors
    requires Prepare(cfg, st.store, line).Ok? && Prepare(cfg, st.store, line).value.Some?
    requires var call := Prepare(cfg, st.store, line).value.value;
             var d := Handlers.Run(cfg.world, cfg.defaultTimeout, call.handler, call.args, st);
             d.IsFailure() && Caught(d.result.error)
    ensures var call := Prepare(cfg, st.store, line).value.value;
            var d := Handlers.Run(cfg.world, cfg.defaultTimeout, call.handler, call.args, st);
            RunLine(cfg, line, st) == Exec(d.state.(output := d.state.output + [SkipNote(line, d.result.error)]), Ok(()))
    ensures var call := Prepare(cfg, st.store, line).value.value;
            var d := Handlers.Run(cfg.world, cfg.defaultTimeout, call.handler, call.args, st);
            var logged := RunLine(cfg, line, st).state.output[|d.state.output|];
            && (d.result.error.UnknownStrategy? ==> logged == SkippedKey(d.result.error.key))
            && (d.result.error.Driver? ==> logged == Skipped(Text.Strip(line), d.result.error))
  {
  }

  /** ...while in strict mode, and for every fault it does not catch, the
      fault ends the run with the requests already issued kept. */
  lemma OtherFaultsAbort(cfg: Config, line: string, st: State)
    requires Prepare(cfg, st.store, line).Ok? && Prepare(cfg, st.store, line).value.Some?
    requires var call := Prepare(cfg, st.store, line).value.value;
             var d := Handlers.Run(cfg.world, cfg.defaultTimeout, call.handler, call.args, st);
             d.IsFailure() && (!cfg.ignoreErrors || !Caught(d.result.error))
    ensures var call := Prepare(cfg, st.store, line).value.value;
            RunLine(cfg, line, st) == Handlers.Run(cfg.world, cfg.defaultTimeout, call.handler, call.args, st)
  {
  }
}

=== FILE: faults.dfy ===
/** The exceptions a script line can raise, and the ignore-error policy of
    `run_line` (main.py:884-913) that decides which of them end the run. */
module Faults {

  /** The Selenium exception classes the interpreter distinguishes; every other
      WebDriver exception is `OtherDriverError`. */
  datatype DriverFault =
    | NoSuchElement
    | InvalidSelector
    | NotInteractable
    | InvalidArgument
    | Timeout
    | OtherDriverError

  datatype Fault =
    | MalformedLine                      // shlex: unterminated quote or escape (ValueError)
    | UndefinedVariable(name: string)    // `${name}` with no `set_var` (RuntimeError)
    | SubstitutionTooDeep                // recursion limit of `_var_filter` (RecursionError)
    | UnknownCommand(name: string)       // no registry entry (ValueError)
    | InsufficientArguments              // ValueError
    | TooManyArguments                   // ValueError
    | UnknownStrategy(key: string)       // `_get_by` (KeyError)
    | NotAnInteger(text: string)         // `parse_int` (ValueError)
    | UnknownKeyName(token: string)      // `_parse_keys` (ValueError)
    | WindowIndexOutOfRange(index: int)  // `cmd_window_index` (ValueError)
    | NoWindows                          // `handles[-1]` on an empty list (IndexError)
    | UnknownSelectMode(mode: string)    // `cmd_select` (ValueError)
    | AssertionFailed(expected: string)  // `cmd_assert_*` (AssertionError)
    | MalformedCookie(entry: string)     // `cmd_cookies_set` (AssertionError)
    | FileNotFound(path: string)         // `cmd_upload` (FileNotFoundError)
    | NegativeSleep(seconds: int)        // `time.sleep` of a negative count (ValueError)
    | Overflow(value: int)               // `float(n)` or `time.sleep(n)` out of range (OverflowError)
    | Driver(kind: DriverFault)          // raised by the browser driver

  /** The exceptions `run_line` catches: `KeyError` and five Selenium classes. */
  predicate Caught(f: Fault) {
    f.UnknownStrategy? || (f.Driver? && f.kind != OtherDriverError)
  }

  datatype Verdict = Proceed | Abort

  /** What `run_line` does with a fault raised inside its `try`: a caught fault is
      logged and the run proceeds in ignore-error mode and is re-raised otherwise;
      every other fault propagates in both modes. */
  function Classify(f: Fault, ignoreErrors: bool): (v: Verdict)
    ensures v == Proceed <==> ignoreErrors && Caught(f)
    ensures !ignoreErrors ==> v == Abort
  {
    if ignoreErrors && Caught(f) then Proceed else Abort
  }
}

=== FILE: handlers.dfy ===
/** The `cmd_*` methods of `CommandExecutor` (main.py:403-823): what each one
    checks, which requests it issues to the world and in which order, and
    which exception it raises. */
module Handlers {
  import opened Wrappers
  import opened Faults
  import opened Registry
  import opened Environment
  import Keys
  import Cookies
  import Integers
  import Text

  /** `_find` (main.py:409-410): the strategy is resolved first, so an unknown
      one raises `KeyError` before anything is asked of the driver. */
  function Locate(world: World, st: State, how: string, selector: string): (r: Exec<Element>)
    ensures Keys.GetBy(how).Err? ==> r == Exec(st, Err(UnknownStrategy(how)))
    ensures Keys.GetBy(how).Ok? ==>
              var a := FindElement(Keys.GetBy(how).value, selector);
              && r.state == st.(trace := st.trace + [a])
              && (r.IsFailure() <==> world(st.trace, a).Failed?)
  {
    var (st1, strategy) :- Check(st, Keys.GetBy(how));
    var (st2, v) :- Ask(world, st1, FindElement(strategy, selector));
    Exec(st2, Ok(v.element))
  }

  /** `parse_int(s)` (main.py:279-283): `ValueError` unless `s` is an integer. */
  function IntArg(text: string): (r: Result<int, Fault>)
    ensures r.Err? <==> Integers.ParseInt(text).None?
    ensures r.Ok? ==> Some(r.value) == Integers.ParseInt(text)
    ensures r.Err? ==> r.error == NotAnInteger(text)
  {
    match Integers.ParseInt(text)
    case None => Err(NotAnInteger(text))
    case Some(n) => Ok(n)
  }

  /** The wait time of the `cmd_wait_*` handlers: `parse_int(timeout) if
      timeout else None` (main.py:683), then `_wait`'s fallback to the
      configured default (main.py:412-413). */
  function WaitSeconds(timeout: string, default: int): (r: Result<int, Fault>)
    ensures timeout == "" ==> r == Ok(default)
    ensures timeout != "" ==> r == IntArg(timeout)
  {
    if timeout == "" then Ok(default) else IntArg(timeout)
  }

  /** An explicit timeout is used even when it is zero: only the empty
      argument falls back to the default. One with more digits than the
      digit limit is refused like any other non-integer. */
  lemma WaitSecondsExplicit(n: int, default: int)
    ensures WaitSeconds(Integers.IntString(n), default) ==
              if Integers.WithinDigitLimit(n) then Ok(n) else Err(NotAnInteger(Integers.IntString(n)))
    ensures WaitSeconds("0", default) == Ok(0)
  {
    Integers.ParseIntString(n);
    Integers.ParseIntString(0);
    assert Integers.IntString(0) == "0";
  }

  /** The bounds check of `cmd_window_index` (main.py:673-675). */
  function WindowSlot(index: int, count: nat): (r: Result<nat, Fault>)
    ensures r.Ok? <==> 0 <= index < count
    ensures r.Ok? ==> r.value == index
    ensures r.Err? ==> r.error == WindowIndexOutOfRange(index)
  {
    if index < 0 || index >= count then Err(WindowIndexOutOfRange(index)) else Ok(index)
  }

  /** The mode dispatch of `cmd_select` (main.py:728-737): the mode is
      lower-cased, and only the index mode parses its value. */
  function SelectChoice(mode: string, value: string): (r: Result<Choice, Fault>)
    ensures Text.Lower(mode) == "text" ==> r == Ok(ByVisibleText(value))
    ensures Text.Lower(mode) == "value" ==> r == Ok(ByValue(value))
    ensures Text.Lower(mode) == "index" ==>
              (r.Ok? <==> Integers.ParseInt(value).Some?)
              && (r.Ok? ==> r.value == ByIndex(Integers.ParseInt(value).value))
    ensures r.Err? && Text.Lower(mode) != "index" ==> r.error == UnknownSelectMode(mode)
    ensures Text.Lower(mode) !in {"text", "value", "index"} ==> r == Err(UnknownSelectMode(mode))
  {
    var m := Text.Lower(mode);
    if m == "text" then Ok(ByVisibleText(value))
    else if m == "value" then Ok(ByValue(value))
    else if m == "index" then
      match IntArg(value)
      case Ok(i) => Ok(ByIndex(i))
      case Err(f) => Err(f)
    else Err(UnknownSelectMode(mode))
  }

  /** Only the lower-cased mode decides: two spellings of one mode choose the
      same option, and fail together. */
  lemma SelectModeCaseInsensitive(m1: string, m2: string, value: string)
    requires Text.Lower(m1) == Text.Lower(m2)
    ensures SelectChoice(m1, value).Ok? <==> SelectChoice(m2, value).Ok?
    ensures SelectChoice(m1, value).Ok? ==> SelectChoice(m1, value) == SelectChoice(m2, value)
    ensures SelectChoice(m1, value).Err? && SelectChoice(m1, value).error.NotAnInteger? ==>
              SelectChoice(m1, value) == SelectChoice(m2, value)
  {
  }

  /** `Text` and `VALUE` are modes, in any letter case; `label` is not. */
  lemma SelectModeExamples()
    ensures SelectChoice("Text", "x") == Ok(ByVisibleText("x"))
    ensures SelectChoice("VALUE", "x") == Ok(ByValue("x"))
    ensures SelectChoice("label", "x") == Err(UnknownSelectMode("label"))
  {
    assert Text.Lower("Text") == "text";
    assert Text.Lower("VALUE") == "value";
    assert Text.Lower("label") == "label";
  }

  /** The index mode parses its value. */
  lemma SelectIndexExamples()
    ensures SelectChoice("index", "2") == Ok(ByIndex(2))
  {
    assert Text.Lower("index") == "index";
    Integers.ParseIntString(2);
    assert Integers.IntString(2) == "2";
  }

  /** `cmd_send_keys` (main.py:461-465) and `cmd_press` (main.py:467-470): the
      target is obtained (and for `send_keys` clicked) before the key names are
      parsed, so a bad key name fails after those requests were issued. */
  function SendKeyTokens(world: World, st: State, el: Element, tokens: seq<string>): (r: Exec<()>)
    ensures Keys.ParseKeys(tokens).Err? ==> r == Exec(st, Err(Keys.ParseKeys(tokens).error))
    ensures Keys.ParseKeys(tokens).Ok? ==> r == Do(world, st, TypeKeys(el, Keys.ParseKeys(tokens).value))
  {
    var (st1, items) :- Check(st, Keys.ParseKeys(tokens));
    Do(world, st1, TypeKeys(el, items))
  }

  /** The loop of `cmd_cookies_set` (main.py:790-797): one `add_cookie` per
      well-formed entry, in order, until the driver refuses one. */
  function AddCookies(world: World, st: State, cookies: seq<Cookies.Cookie>): (r: Exec<()>)
    decreases |cookies|
    ensures r.state.store == st.store && r.state.keepOpen == st.keepOpen && r.state.output == st.output
    ensures st.trace <= r.state.trace
    ensures !r.IsFailure() ==> r.state.trace == st.trace + seq(|cookies|, i requires 0 <= i < |cookies| => AddCookie(cookies[i]))
    ensures r.IsFailure() ==> r.result.error.Driver?
  {
    if cookies == [] then Exec(st, Ok(()))
    else
      var (st1, _) :- Do(world, st, AddCookie(cookies[0]));
      var r := AddCookies(world, st1, cookies[1..]);
      assert !r.IsFailure() ==>
               seq(|cookies|, i requires 0 <= i < |cookies| => AddCookie(cookies[i]))
               == [AddCookie(cookies[0])] + seq(|cookies| - 1, i requires 0 <= i < |cookies| - 1 => AddCookie(cookies[1..][i]));
      r
  }

  /** `cmd_cookies_set`: the well-formed entries before the first malformed
      one are added, then the malformed one raises `AssertionError`. */
  function CookiesSetCommand(world: World, st: State, values: string): (r: Exec<()>)
    ensures var batch := Cookies.ParseCookies(values);
            var added := AddCookies(world, st, batch.cookies);
            r.state == added.state
            && (added.IsFailure() ==> r.result == added.result)
            && (!added.IsFailure() && batch.malformed.Some? ==> r.result == Err(MalformedCookie(batch.malformed.value)))
            && (!added.IsFailure() && batch.malformed.None? ==> r.result == Ok(()))
  {
    var batch := Cookies.ParseCookies(values);
    var (st1, _) :- AddCookies(world, st, batch.cookies);
    if batch.malformed.Some? then Raise(st1, MalformedCookie(batch.malformed.value))
    else Exec(st1, Ok(()))
  }

  /** A world that accepts every cookie. */
  ghost predicate AcceptsCookies(world: World) {
    forall t, c :: world(t, AddCookie(c)).Answer?
  }

  /** When every cookie is accepted, each is added, in order. */
  lemma {:induction false} AddCookiesAccepted(world: World, st: State, cookies: seq<Cookies.Cookie>)
    requires AcceptsCookies(world)
    ensures !AddCookies(world, st, cookies).IsFailure()
    decreases |cookies|
  {
    if cookies != [] {
      assert world(st.trace, AddCookie(cookies[0])).Answer?;
      AddCookiesAccepted(world, st.(trace := st.trace + [AddCookie(cookies[0])]), cookies[1..]);
    }
  }

  /** `cookies_set "a:1;b:2;"`: the trailing separator leaves an empty entry,
      so both cookies are added and then the command fails on the empty one. */
  lemma CookiesSetTrailingSeparator(world: World, st: State, cs: seq<Cookies.Cookie>)
    requires AcceptsCookies(world)
    requires |cs| >= 1 && forall i | 0 <= i < |cs| :: Cookies.Plain(cs[i])
    ensures var r := CookiesSetCommand(world, st, Cookies.RenderCookies(cs) + ";");
            && r.result == Err(MalformedCookie(""))
            && r.state.trace == st.trace + seq(|cs|, i requires 0 <= i < |cs| => AddCookie(cs[i]))
  {
    Cookies.TrailingSeparatorFails(cs);
    AddCookiesAccepted(world, st, cs);
  }

  /** `expected in text` for the `cmd_assert_*` handlers (main.py:762-774). */
  function Expect(st: State, text: string, expected: string): (r: Exec<()>)
    ensures r.state == st
    ensures r.IsFailure() <==> !Text.Contains(text, expected)
    ensures r.IsFailure() ==> r.result.error == AssertionFailed(expected)
  {
    if Text.Contains(text, expected) then Exec(st, Ok(())) else Raise(st, AssertionFailed(expected))
  }

  /** The one-element gestures: locate, then one request on the element. */
  predicate IsGesture(h: Handler) {
    h in {Click, RClick, DClick, Hover, ClickJs, Clear, Frame}
  }

  function Gesture(h: Handler, el: Element): Action
    requires IsGesture(h)
  {
    match h
    case Click => ClickOn(el)          // main.py:437-438
    case RClick => ContextClick(el)    // main.py:440-441
    case DClick => DoubleClick(el)     // main.py:443-444
    case Hover => MoveTo(el)           // main.py:446-447
    case ClickJs => ClickByScript(el)  // main.py:449-451
    case Clear => ClearField(el)       // main.py:453-454
    case Frame => SwitchToFrame(el)    // main.py:653-655
  }

  function GestureCommand(world: World, st: State, h: Handler, how: string, selector: string): (r: Exec<()>)
    requires IsGesture(h)
    ensures Extends(st, r.state) && r.state.output == st.output
    ensures !r.IsFailure() ==>
              && Keys.GetBy(how).Ok?
              && var find := FindElement(Keys.GetBy(how).value, selector);
              && world(st.trace, find).Answer?
              && r.state.trace == st.trace + [find, Gesture(h, world(st.trace, find).value.element)]
  {
    var (st1, el) :- Locate(world, st, how, selector);
    Do(world, st1, Gesture(h, el))
  }

  /** `cmd_write` (main.py:456-459): click, then type the words rejoined with
      single spaces. */
  function WriteCommand(world: World, st: State, how: string, selector: string, words: seq<string>): (r: Exec<()>)
    ensures Extends(st, r.state) && r.state.output == st.output
    ensures !r.IsFailure() ==>
              |r.state.trace| == |st.trace| + 3
              && r.state.trace[|st.trace| + 1].ClickOn?
              && r.state.trace[|st.trace| + 2] == TypeText(r.state.trace[|st.trace| + 1].el, Text.JoinSpace(words))
  {
    var (st1, el) :- Locate(world, st, how, selector);
    var (st2, _) :- Do(world, st1, ClickOn(el));
    Do(world, st2, TypeText(el, Text.JoinSpace(words)))
  }

  /** `cmd_send_keys` (main.py:461-465): the element is found and clicked
      before the key names are parsed, so an unknown key name is reported
      after both requests were issued. */
  function SendKeysCommand(world: World, st: State, how: string, selector: string, tokens: seq<string>): (r: Exec<()>)
    ensures Extends(st, r.state) && r.state.output == st.output
    ensures Keys.ParseKeys(tokens).Err? ==> r.IsFailure()
    ensures r.IsFailure() && r.result.error.UnknownKeyName? ==>
              |r.state.trace| == |st.trace| + 2 && r.state.trace[|st.trace| + 1].ClickOn?
  {
    var (st1, el) :- Locate(world, st, how, selector);
    var (st2, _) :- Do(world, st1, ClickOn(el));
    SendKeyTokens(world, st2, el, tokens)
  }

  /** `cmd_press` (main.py:467-470): the active element is asked for first. */
  function PressCommand(world: World, st: State, tokens: seq<string>): (r: Exec<()>)
    ensures Extends(st, r.state) && r.state.output == st.output
    ensures r.IsFailure() && r.result.error.UnknownKeyName? ==> r.state.trace == st.trace + [ActiveElement]
  {
    var (st1, v) :- Ask(world, st, ActiveElement);
    SendKeyTokens(world, st1, v.element, tokens)
  }

  /** `cmd_write_ce` (main.py:472-527) and `cmd_write_js` (main.py:529-613):
      the scroll into view is attempted and its failure ignored; only the
      insertion's reply decides the outcome. */
  function InsertCommand(world: World, st: State, scripted: bool, how: string, selector: string, words: seq<string>): (r: Exec<()>)
    ensures Extends(st, r.state) && r.state.output == st.output
    ensures Keys.GetBy(how).Ok? ==>
              var find := FindElement(Keys.GetBy(how).value, selector);
              world(st.trace, find).Answer? ==>
                var el := world(st.trace, find).value.element;
                var text := Text.JoinSpace(words);
                var insert := if scripted then InsertScripted(el, text) else InsertEditable(el, text);
                (r.IsFailure() <==> world(st.trace + [find, ScrollToCenter(el)], insert).Failed?)
  {
    var (st1, el) :- Locate(world, st, how, selector);
    var st2 := Attempt(st1, ScrollToCenter(el));
    assert st2.trace == st.trace + [FindElement(Keys.GetBy(how).value, selector), ScrollToCenter(el)];
    var text := Text.JoinSpace(words);
    Do(world, st2, if scripted then InsertScripted(el, text) else InsertEditable(el, text))
  }

  /** `cmd_drag_drop` (main.py:615-618): source then target. */
  function DragDropCommand(world: World, st: State, how1: string, selector1: string, how2: string, selector2: string): (r: Exec<()>)
    ensures Extends(st, r.state) && r.state.output == st.output
    ensures Keys.GetBy(how1).Err? ==> r == Exec(st, Err(UnknownStrategy(how1)))
  {
    var (st1, source) :- Locate(world, st, how1, selector1);
    var (st2, target) :- Locate(world, st1, how2, selector2);
    Do(world, st2, DragAndDrop(source, target))
  }

  /** `cmd_drag_offset` (main.py:620-622): the element is found before the
      offsets are parsed, so a bad offset is reported after the lookup. */
  function DragOffsetCommand(world: World, st: State, how: string, selector: string, x: string, y: string): (r: Exec<()>)
    ensures Extends(st, r.state) && r.state.output == st.output
    ensures r.IsFailure() && r.result.error.NotAnInteger? ==>
              |r.state.trace| == |st.trace| + 1 && r.state.trace[|st.trace|].FindElement?
  {
    var (st1, el) :- Locate(world, st, how, selector);
    var (st2, dx) :- Check(st1, IntArg(x));
    var (st3, dy) :- Check(st2, IntArg(y));
    Do(world, st3, DragByOffset(el, dx, dy))
  }

  /** Two integer arguments, the first parsed first. */
  function IntPair(st: State, x: string, y: string): (r: Exec<(int, int)>)
    ensures r.state == st
    ensures !r.IsFailure() <==> Integers.ParseInt(x).Some? && Integers.ParseInt(y).Some?
    ensures !r.IsFailure() ==> r.result.value == (Integers.ParseInt(x).value, Integers.ParseInt(y).value)
    ensures Integers.ParseInt(x).None? ==> r.result == Err(NotAnInteger(x))
  {
    var (st1, a) :- Check(st, IntArg(x));
    var (st2, b) :- Check(st1, IntArg(y));
    Exec(st2, Ok((a, b)))
  }

  /** `cmd_set_window` (main.py:649-650) and `cmd_scroll_by`
      (main.py:715-717): both numbers are parsed before the one request. */
  function OffsetCommand(world: World, st: State, x: string, y: string, scroll: bool): (r: Exec<()>)
    ensures Extends(st, r.state) && r.state.output == st.output
    ensures Integers.ParseInt(x).None? || Integers.ParseInt(y).None? ==> r.state == st && r.IsFailure()
    ensures !r.IsFailure() ==>
              var dx, dy := Integers.ParseInt(x).value, Integers.ParseInt(y).value;
              r.state.trace == st.trace + [if scroll then ScrollByOffset(dx, dy) else SetWindowSize(dx, dy)]
  {
    var (st1, pair) :- IntPair(st, x, y);
    Do(world, st1, if scroll then ScrollByOffset(pair.0, pair.1) else SetWindowSize(pair.0, pair.1))
  }

  /** `cmd_frame_index` (main.py:657-658). */
  function FrameIndexCommand(world: World, st: State, index: string): (r: Exec<()>)
    ensures Extends(st, r.state) && r.state.output == st.output
    ensures Integers.ParseInt(index).None? ==> r == Exec(st, Err(NotAnInteger(index)))
  {
    var (st1, i) :- Check(st, IntArg(index));
    Do(world, st1, SwitchToFrameIndex(i))
  }

  /** `cmd_window_latest` (main.py:667-669): switch to the last handle. */
  function WindowLatestCommand(world: World, st: State): (r: Exec<()>)
    ensures Extends(st, r.state) && r.state.output == st.output
    ensures r.result == Err(NoWindows) <==> world(st.trace, ListWindows).Answer? && world(st.trace, ListWindows).value.count == 0
    ensures !r.IsFailure() ==>
              && world(st.trace, ListWindows).Answer?
              && var count := world(st.trace, ListWindows).value.count;
                 count > 0 && r.state.trace == st.trace + [ListWindows, SwitchToWindow(count - 1)]
  {
    var (st1, v) :- Ask(world, st, ListWindows);
    if v.count == 0 then Raise(st1, NoWindows)
    else Do(world, st1, SwitchToWindow(v.count - 1))
  }

  /** `cmd_window_index` (main.py:671-676): the index is checked against the
      current handles before switching; negative indices are refused rather
      than counted from the end. */
  function WindowIndexCommand(world: World, st: State, index: string): (r: Exec<()>)
    ensures Extends(st, r.state) && r.state.output == st.output
    ensures var n := Integers.ParseInt(index);
            var listed := world(st.trace, ListWindows);
            (r.IsFailure() && r.result.error.WindowIndexOutOfRange?) <==>
              n.Some? && listed.Answer? && !(0 <= n.value < listed.value.count)
    ensures var n := Integers.ParseInt(index);
            var listed := world(st.trace, ListWindows);
            !r.IsFailure() ==>
              && n.Some? && listed.Answer? && 0 <= n.value < listed.value.count
              && r.state.trace == st.trace + [ListWindows, SwitchToWindow(n.value)]
  {
    var (st1, i) :- Check(st, IntArg(index));
    var (st2, v) :- Ask(world, st1, ListWindows);
    var (st3, slot) :- Check(st2, WindowSlot(i, v.count));
    Do(world, st3, SwitchToWindow(slot))
  }

  /** The `cmd_wait_*` handlers (main.py:682-700): the timeout is parsed
      and handed to `WebDriverWait` (main.py:413), whose `float(timeout)` may
      overflow, before the strategy is resolved; a wait is one request
      carrying the defaulted timeout. */
  function WaitCommand(world: World, st: State, default: int, condition: Condition, how: string, selector: string, timeout: string): (r: Exec<()>)
    ensures Extends(st, r.state) && r.state.output == st.output
    ensures WaitSeconds(timeout, default).Err? ==> r == Exec(st, Err(NotAnInteger(timeout)))
    ensures WaitSeconds(timeout, default).Ok? && !Integers.FitsFloat(WaitSeconds(timeout, default).value) ==>
              r == Exec(st, Err(Overflow(WaitSeconds(timeout, default).value)))
    ensures !r.IsFailure() ==>
              && WaitSeconds(timeout, default).Ok?
              && Integers.FitsFloat(WaitSeconds(timeout, default).value)
              && Keys.GetBy(how).Ok?
              && r.state.trace == st.trace + [WaitUntil(WaitSeconds(timeout, default).value, Keys.GetBy(how).value, selector, condition)]
  {
    var (st1, seconds) :- Check(st, WaitSeconds(timeout, default));
    if !Integers.FitsFloat(seconds) then Raise(st1, Overflow(seconds))
    else
      var (st2, strategy) :- Check(st1, Keys.GetBy(how));
      Do(world, st2, WaitUntil(seconds, strategy, selector, condition))
  }

  /** A timeout too large for `float` ends the command whatever the strategy
      names, with a fault `run_line` does not catch; an unknown strategy, which
      it does catch, is never reached. */
  lemma WaitOverflowBeforeStrategy(world: World, st: State, default: int, condition: Condition, how: string, selector: string, n: int)
    requires Integers.WithinDigitLimit(n) && !Integers.FitsFloat(n)
    ensures WaitCommand(world, st, default, condition, how, selector, Integers.IntString(n)) == Exec(st, Err(Overflow(n)))
    ensures !Caught(Overflow(n))
  {
    WaitSecondsExplicit(n, default);
  }

  /** `cmd_scroll_into_view` (main.py:711-713). */
  function ScrollIntoViewCommand(world: World, st: State, how: string, selector: string, block: string): (r: Exec<()>)
    ensures Extends(st, r.state) && r.state.output == st.output
    ensures !r.IsFailure() ==>
              |r.state.trace| == |st.trace| + 2 && r.state.trace[|st.trace| + 1].ScrollElement?
              && r.state.trace[|st.trace| + 1].block == block
  {
    var (st1, el) :- Locate(world, st, how, selector);
    Do(world, st1, ScrollElement(el, block))
  }

  /** `cmd_select` (main.py:726-737): the element is wrapped before the mode
      is examined. */
  function SelectCommand(world: World, st: State, how: string, selector: string, mode: string, value: string): (r: Exec<()>)
    ensures Extends(st, r.state) && r.state.output == st.output
    ensures r.IsFailure() && r.result.error.UnknownSelectMode? ==>
              |r.state.trace| == |st.trace| + 2 && r.state.trace[|st.trace| + 1].WrapSelect?
    ensures !r.IsFailure() ==> SelectChoice(mode, value).Ok?
  {
    var (st1, el) :- Locate(world, st, how, selector);
    var (st2, _) :- Do(world, st1, WrapSelect(el));
    var (st3, choice) :- Check(st2, SelectChoice(mode, value));
    Do(world, st3, ChooseOption(el, choice))
  }

  /** `cmd_upload` (main.py:740-744): the path is resolved and checked before
      the element is looked up; a missing file issues no lookup. */
  function UploadCommand(world: World, st: State, how: string, selector: string, path: string): (r: Exec<()>)
    ensures Extends(st, r.state) && r.state.output == st.output
    ensures r.IsFailure() && r.result.error.FileNotFound? ==>
              && world(st.trace, ResolvePath(path)).Answer?
              && var resolved := world(st.trace, ResolvePath(path)).value.text;
              && r.result.error == FileNotFound(resolved)
              && r.state.trace == st.trace + [ResolvePath(path), PathExists(resolved)]
  {
    var (st1, resolved) :- Ask(world, st, ResolvePath(path));
    var (st2, found) :- Ask(world, st1, PathExists(resolved.text));
    if !found.flag then Raise(st2, FileNotFound(resolved.text))
    else
      var (st3, el) :- Locate(world, st2, how, selector);
      Do(world, st3, AttachFile(el, resolved.text))
  }

  /** `cmd_screenshot` (main.py:746-749): the directory is made first. */
  function ScreenshotCommand(world: World, st: State, path: string): (r: Exec<()>)
    ensures Extends(st, r.state) && r.state.output == st.output
    ensures |r.state.trace| > |st.trace| && r.state.trace[|st.trace|] == MakeParentDirectories(path)
  {
    var (st1, _) :- Do(world, st, MakeParentDirectories(path));
    Do(world, st1, SaveScreenshot(path))
  }

  /** `cmd_screenshot_element` (main.py:751-755): the directory is made
      before the element is looked up. */
  function ScreenshotElementCommand(world: World, st: State, how: string, selector: string, path: string): (r: Exec<()>)
    ensures Extends(st, r.state) && r.state.output == st.output
    ensures |r.state.trace| > |st.trace| && r.state.trace[|st.trace|] == MakeParentDirectories(path)
  {
    var (st1, _) :- Do(world, st, MakeParentDirectories(path));
    var (st2, el) :- Locate(world, st1, how, selector);
    Do(world, st2, SaveElementScreenshot(el, path))
  }

  /** `cmd_assert_text` (main.py:762-765): the element's text must contain
      the expected text. */
  function AssertTextCommand(world: World, st: State, how: string, selector: string, expected: string): (r: Exec<()>)
    ensures Extends(st, r.state) && r.state.output == st.output
    ensures r.IsFailure() && r.result.error.AssertionFailed? ==>
              && r.result.error.expected == expected
              && |r.state.trace| == |st.trace| + 2
              && r.state.trace[|st.trace| + 1].ReadText?
              && world(r.state.trace[..|st.trace| + 1], r.state.trace[|st.trace| + 1]).Answer?
              && !Text.Contains(world(r.state.trace[..|st.trace| + 1], r.state.trace[|st.trace| + 1]).value.text, expected)
  {
    var (st1, el) :- Locate(world, st, how, selector);
    var (st2, v) :- Ask(world, st1, ReadText(el));
    Expect(st2, v.text, expected)
  }

  /** `cmd_assert_url_contains` (main.py:767-769) and
      `cmd_assert_title_contains` (main.py:771-774): one read, then the
      containment test. */
  function AssertPageCommand(world: World, st: State, read: Action, expected: string): (r: Exec<()>)
    requires read == ReadUrl || read == ReadTitle
    ensures r.state == st.(trace := st.trace + [read])
    ensures r.IsFailure() <==> world(st.trace, read).Failed? || !Text.Contains(world(st.trace, read).value.text, expected)
  {
    var (st1, v) :- Ask(world, st, read);
    Expect(st1, v.text, expected)
  }

  /** `assert_url_contains` with no argument receives one empty string, which
      every URL contains: it fails only if the URL cannot be read. */
  lemma EmptyExpectationHolds(world: World, st: State, read: Action)
    requires read == ReadUrl || read == ReadTitle
    ensures AssertPageCommand(world, st, read, "").IsFailure() <==> world(st.trace, read).Failed?
  {
    if world(st.trace, read).Answer? {
      assert Text.OccursAt(world(st.trace, read).value.text, "", 0);
    }
  }

  /** `cmd_print_text` (main.py:776-777), `cmd_print_attr` (main.py:779-780)
      and `cmd_cookie_get` (main.py:799-801): print what the read returned. */
  function PrintRead(world: World, st: State, read: Action): (r: Exec<()>)
    ensures r.state.store == st.store && r.state.keepOpen == st.keepOpen
    ensures r.state.trace == st.trace + [read]
    ensures r.IsFailure() <==> world(st.trace, read).Failed?
    ensures r.IsFailure() ==> r.state.output == st.output
    ensures !r.IsFailure() ==> r.state.output == st.output + [Printed(world(st.trace, read).value.text)]
  {
    var (st1, v) :- Ask(world, st, read);
    Exec(Print(st1, v.text), Ok(()))
  }

  function PrintTextCommand(world: World, st: State, how: string, selector: string): (r: Exec<()>)
    ensures Extends(st, r.state)
    ensures !r.IsFailure() ==> |r.state.output| == |st.output| + 1
  {
    var (st1, el) :- Locate(world, st, how, selector);
    PrintRead(world, st1, ReadText(el))
  }

  function PrintAttrCommand(world: World, st: State, how: string, selector: string, name: string): (r: Exec<()>)
    ensures Extends(st, r.state)
    ensures !r.IsFailure() ==> |r.state.output| == |st.output| + 1
  {
    var (st1, el) :- Locate(world, st, how, selector);
    PrintRead(world, st1, ReadAttribute(el, name))
  }

  /** `cmd_sleep` (main.py:810-811): `time.sleep` converts the count to
      nanoseconds first, which overflows past `SleepLimit` seconds either way,
      and then refuses a negative duration; both happen before any request. */
  function SleepCommand(world: World, st: State, seconds: string): (r: Exec<()>)
    ensures Extends(st, r.state) && r.state.output == st.output
    ensures r.IsFailure() && !r.result.error.Driver? ==> r.state == st
    ensures !r.IsFailure() ==>
              Integers.ParseInt(seconds).Some? && 0 <= Integers.ParseInt(seconds).value <= Integers.SleepLimit
              && r.state.trace == st.trace + [SleepFor(Integers.ParseInt(seconds).value)]
    ensures Integers.ParseInt(seconds).Some? && -(Integers.SleepLimit as int) <= Integers.ParseInt(seconds).value < 0 ==>
              r == Exec(st, Err(NegativeSleep(Integers.ParseInt(seconds).value)))
    ensures Integers.ParseInt(seconds).Some? && Integers.Magnitude(Integers.ParseInt(seconds).value) > Integers.SleepLimit ==>
              r == Exec(st, Err(Overflow(Integers.ParseInt(seconds).value)))
  {
    var (st1, n) :- Check(st, IntArg(seconds));
    if Integers.Magnitude(n) > Integers.SleepLimit then Raise(st1, Overflow(n))
    else if n < 0 then Raise(st1, NegativeSleep(n))
    else Do(world, st1, SleepFor(n))
  }

  /** The argument after the `given` ones, or the default when it was omitted. */
  function Optional(args: seq<string>, given: nat, default: string): string {
    if |args| > given then args[given] else default
  }

  /** Handlers that locate an element (or the active one) and act on it. */
  predicate ElementHandler(h: Handler) {
    h in {Click, RClick, DClick, Hover, ClickJs, Clear, Frame, Write, SendKeys, Press, WriteCe, WriteJs, DragDrop, DragOffset, ScrollIntoView, Select, Upload, ScreenshotElement, AssertText, PrintText, PrintAttr}
  }

  function RunElement(world: World, h: Handler, args: seq<string>, st: State): (r: Exec<()>)
    requires ElementHandler(h) && Accepts(SignatureOf(h), |args|)
    ensures Extends(st, r.state)
  {
    match h
    case Click | RClick | DClick | Hover | ClickJs | Clear | Frame => GestureCommand(world, st, h, args[0], args[1])
    case Write => WriteCommand(world, st, args[0], args[1], args[2..])
    case SendKeys => SendKeysCommand(world, st, args[0], args[1], args[2..])
    case Press => PressCommand(world, st, args)
    case WriteCe => InsertCommand(world, st, false, args[0], args[1], args[2..])
    case WriteJs => InsertCommand(world, st, true, args[0], args[1], args[2..])
    case DragDrop => DragDropCommand(world, st, args[0], args[1], args[2], args[3])
    case DragOffset => DragOffsetCommand(world, st, args[0], args[1], args[2], args[3])
    case ScrollIntoView => ScrollIntoViewCommand(world, st, args[0], args[1], Optional(args, 2, "center"))
    case Select => SelectCommand(world, st, args[0], args[1], args[2], args[3])
    case Upload => UploadCommand(world, st, args[0], args[1], args[2])
    case ScreenshotElement => ScreenshotElementCommand(world, st, args[0], args[1], args[2])
    case AssertText => AssertTextCommand(world, st, args[0], args[1], args[2])
    case PrintText => PrintTextCommand(world, st, args[0], args[1])
    case PrintAttr => PrintAttrCommand(world, st, args[0], args[1], args[2])
  }

  /** Handlers that navigate, or act on browser windows and frames. */
  predicate BrowserHandler(h: Handler) {
    h in {Goto, Back, Forward, Refresh, Maximize, Minimize, SetWindow, FrameIndex, FrameParent, FrameDefault, WindowLatest, WindowIndex, WindowClose}
  }

  function RunBrowser(world: World, h: Handler, args: seq<string>, st: State): (r: Exec<()>)
    requires BrowserHandler(h) && Accepts(SignatureOf(h), |args|)
    ensures Extends(st, r.state)
    ensures h in {Maximize, Minimize} ==> !r.IsFailure()
  {
    match h
    case Goto => Do(world, st, Navigate(args[0]))                 // main.py:625-626
    case Back => Do(world, st, GoBack)                            // main.py:628-629
    case Forward => Do(world, st, GoForward)                      // main.py:631-632
    case Refresh => Do(world, st, Reload)                         // main.py:634-635
    case Maximize => Exec(Attempt(st, MaximizeWindow), Ok(()))    // main.py:637-641
    case Minimize => Exec(Attempt(st, MinimizeWindow), Ok(()))    // main.py:643-647
    case SetWindow => OffsetCommand(world, st, args[0], args[1], false)
    case FrameIndex => FrameIndexCommand(world, st, args[0])
    case FrameParent => Do(world, st, SwitchToParentFrame)        // main.py:660-661
    case FrameDefault => Do(world, st, SwitchToDefaultContent)    // main.py:663-664
    case WindowLatest => WindowLatestCommand(world, st)
    case WindowIndex => WindowIndexCommand(world, st, args[0])
    case WindowClose => Do(world, st, CloseWindow)                // main.py:678-679
  }

  /** Handlers that act on the whole page, or save it. */
  predicate PageHandler(h: Handler) {
    h in {ScrollBy, ScrollTop, ScrollBottom, Screenshot, ExecJs, AssertUrlContains, AssertTitleContains}
  }

  function RunPage(world: World, h: Handler, args: seq<string>, st: State): (r: Exec<()>)
    requires PageHandler(h) && Accepts(SignatureOf(h), |args|)
    ensures Extends(st, r.state) && r.state.output == st.output
  {
    match h
    case ScrollBy => OffsetCommand(world, st, args[0], args[1], true)
    case ScrollTop => Do(world, st, ScrollToTop)                  // main.py:719-720
    case ScrollBottom => Do(world, st, ScrollToBottom)            // main.py:722-723
    case Screenshot => ScreenshotCommand(world, st, args[0])
    case ExecJs => Do(world, st, RunScript(args[0]))              // main.py:757-759
    case AssertUrlContains => AssertPageCommand(world, st, ReadUrl, args[0])
    case AssertTitleContains => AssertPageCommand(world, st, ReadTitle, args[0])
  }

  /** The explicit waits. */
  predicate WaitHandler(h: Handler) {
    h in {WaitPresent, WaitVisible, WaitClickable, WaitInvisible, WaitText}
  }

  function RunWait(world: World, timeout: int, h: Handler, args: seq<string>, st: State): (r: Exec<()>)
    requires WaitHandler(h) && Accepts(SignatureOf(h), |args|)
    ensures Extends(st, r.state) && r.state.output == st.output
  {
    match h
    case WaitPresent => WaitCommand(world, st, timeout, Present, args[0], args[1], Optional(args, 2, ""))
    case WaitVisible => WaitCommand(world, st, timeout, Visible, args[0], args[1], Optional(args, 2, ""))
    case WaitClickable => WaitCommand(world, st, timeout, Clickable, args[0], args[1], Optional(args, 2, ""))
    case WaitInvisible => WaitCommand(world, st, timeout, Invisible, args[0], args[1], Optional(args, 2, ""))
    case WaitText => WaitCommand(world, st, timeout, TextPresent(args[2]), args[0], args[1], Optional(args, 3, ""))
  }

  /** Handlers for the console, cookies, time and the interpreter's own state. */
  function RunSession(world: World, h: Handler, args: seq<string>, st: State): (r: Exec<()>)
    requires !ElementHandler(h) && !BrowserHandler(h) && !PageHandler(h) && !WaitHandler(h)
    requires Accepts(SignatureOf(h), |args|)
    ensures h != SetVar && h != KeepOpen ==> Extends(st, r.state)
    ensures h == SetVar ==> r.state == st.(store := st.store[args[0] := args[1]])
    ensures h == KeepOpen ==> r.state == st.(keepOpen := true)
    ensures h in {Echo, Pause, KeepOpen, SetVar} ==> !r.IsFailure()
  {
    match h
    case Echo => Exec(Print(st, Text.JoinSpace(args)), Ok(()))   // main.py:782-783
    case CookieSet => Do(world, st, AddCookie(Cookies.Cookie(args[0], args[1])))   // main.py:786-787
    case CookiesSet => CookiesSetCommand(world, st, args[0])
    case CookieGet => PrintRead(world, st, ReadCookie(args[0]))
    case CookieDelete => Do(world, st, DeleteCookie(args[0]))     // main.py:803-804
    case CookieClear => Do(world, st, DeleteAllCookies)           // main.py:806-807
    case Sleep => SleepCommand(world, st, args[0])
    case Pause => Exec(Attempt(st, AwaitEnter), Ok(()))           // main.py:813-817
    case KeepOpen => Exec(st.(keepOpen := true), Ok(()))          // main.py:819-820
    case SetVar => Exec(st.(store := st.store[args[0] := args[1]]), Ok(()))   // main.py:822-823
  }

  /** Handlers that cannot fail: their only request, if any, is attempted. */
  predicate Infallible(h: Handler) {
    h in {Maximize, Minimize, Pause, Echo, KeepOpen, SetVar}
  }

  /** `func(*args)` (main.py:882): the handler's body, given arguments that
      bind to its Python signature and the executor's default wait time. Only
      `set_var` changes the store and only `keep_open` the flag; every other
      handler just issues requests and prints. */
  function Run(world: World, timeout: int, h: Handler, args: seq<string>, st: State): (r: Exec<()>)
    requires Accepts(SignatureOf(h), |args|)
    ensures h != SetVar && h != KeepOpen ==> Extends(st, r.state)
    ensures h == SetVar ==> r.state == st.(store := st.store[args[0] := args[1]])
    ensures h == KeepOpen ==> r.state == st.(keepOpen := true)
    ensures Infallible(h) ==> !r.IsFailure()
  {
    if ElementHandler(h) then RunElement(world, h, args, st)
    else if BrowserHandler(h) then RunBrowser(world, h, args, st)
    else if PageHandler(h) then RunPage(world, h, args, st)
    else if WaitHandler(h) then RunWait(world, timeout, h, args, st)
    else RunSession(world, h, args, st)
  }
}

=== FILE: integers.dfy ===
/** `parse_int` (main.py:279-283): Python's `int(s)` restricted to ASCII digits,
    and the decimal rendering it inverts. */
module Integers {
  import opened Wrappers
  import Text

  predicate IsDigit(c: char) {
    '0' <= c <= '9'
  }

  function DigitValue(c: char): nat
    requires IsDigit(c)
  {
    c as int - '0' as int
  }

  function DigitChar(d: nat): (c: char)
    requires d < 10
    ensures IsDigit(c) && DigitValue(c) == d
  {
    ('0' as int + d) as char
  }

  /** Python's digit grammar: digits, with single underscores allowed between
      two digits, that is, digits at both ends and no two underscores in a row. */
  predicate IsDigitRun(s: string) {
    && |s| > 0
    && (forall i | 0 <= i < |s| :: IsDigit(s[i]) || s[i] == '_')
    && IsDigit(s[0]) && IsDigit(s[|s| - 1])
    && (forall i, j | 0 <= i < |s| && j == i + 1 && j < |s| :: !(s[i] == '_' && s[j] == '_'))
  }

  /** The digits of `s` without its underscores. */
  function DropUnderscores(s: string): (r: string)
    ensures |r| <= |s|
    ensures (forall i | 0 <= i < |s| :: IsDigit(s[i]) || s[i] == '_') ==> forall i | 0 <= i < |r| :: IsDigit(r[i])
    ensures (forall i | 0 <= i < |s| :: s[i] != '_') ==> r == s
  {
    if s == [] then []
    else if s[|s| - 1] == '_' then DropUnderscores(s[..|s| - 1])
    else DropUnderscores(s[..|s| - 1]) + [s[|s| - 1]]
  }

  /** The value of a string of decimal digits, most significant first. */
  function DigitsValue(s: string): nat
    requires forall i | 0 <= i < |s| :: IsDigit(s[i])
  {
    if s == [] then 0 else DigitsValue(s[..|s| - 1]) * 10 + DigitValue(s[|s| - 1])
  }

  /** The default of `sys.get_int_max_str_digits()`: `int(s)` refuses a
      decimal string with more digits than this (CPython 3.11 on, and the
      3.7-3.10 security releases). Leading zeros count; underscores do not. */
  const MaxStrDigits: nat := 4300

  /** The digits after the sign: a run of digits within the digit limit. */
  function ReadDigits(body: string): (r: Option<nat>)
    ensures r.Some? ==> IsDigitRun(body) && |DropUnderscores(body)| <= MaxStrDigits
  {
    if IsDigitRun(body) && |DropUnderscores(body)| <= MaxStrDigits then Some(DigitsValue(DropUnderscores(body)))
    else None
  }

  /** The white space `int(s)` skips around its digits. ASCII text is read as
      it is, so only tab, line feed, vertical tab, form feed, carriage return
      and space count there; the four ASCII separators U+001C-U+001F, white
      space to `str.isspace`, do not. A non-ASCII white-space character is
      read as a space. */
  predicate IsIntSpace(c: char) {
    Text.IsSpace(c) && !(0x1C <= c as int <= 0x1F)
  }

  /** The text `int(s)` reads: `s` without surrounding `IsIntSpace` characters. */
  function IntStrip(s: string): (t: string)
    ensures t == [] || (!IsIntSpace(t[0]) && !IsIntSpace(t[|t| - 1]))
  {
    Text.StripWith(s, IsIntSpace)
  }

  /** Python `int(s)` on ASCII digits: surrounding white space, an optional
      sign, then digits, no more of them than the digit limit allows. */
  function ParseInt(s: string): (r: Option<int>)
    ensures r.Some? ==> |IntStrip(s)| > 0
  {
    var t := IntStrip(s);
    if |t| > 0 && (t[0] == '-' || t[0] == '+') then
      match ReadDigits(t[1..])
      case None => None
      case Some(n) => Some(if t[0] == '-' then -(n as int) else n)
    else ReadDigits(t)
  }

  /** Decimal rendering of a natural number, without leading zeros. */
  function NatString(n: nat): (s: string)
    ensures |s| > 0
    ensures forall i | 0 <= i < |s| :: IsDigit(s[i])
  {
    if n < 10 then [DigitChar(n)] else NatString(n / 10) + [DigitChar(n % 10)]
  }

  function Magnitude(n: int): nat {
    if n < 0 then -n else n
  }

  /** Python `str(n)` for an integer. */
  function IntString(n: int): string {
    if n < 0 then "-" + NatString(-n) else NatString(n)
  }

  function Pow2(k: nat): (p: nat)
    ensures p >= 1
  {
    if k == 0 then 1 else 2 * Pow2(k - 1)
  }

  /** `float(n)`, as `WebDriverWait` applies it to its timeout, rounds `n` to
      53 significant bits, ties to even, and raises `OverflowError` when the
      rounded magnitude reaches 2^1024. The largest double is 2^1024 - 2^971,
      so the first magnitude refused is the midpoint 2^1024 - 2^970, which
      rounds up because the largest double's last bit is odd. */
  predicate FitsFloat(n: int) {
    Magnitude(n) < Pow2(1024) - Pow2(970)
  }

  /** The largest whole number of seconds `time.sleep` converts: its
      nanosecond count must fit the signed 64-bit `_PyTime_t`, and the bound
      is (2^63 - 1) / 10^9 rounded toward zero, on both sides. */
  const SleepLimit: nat := 9_223_372_036

  /** `SleepLimit` seconds fit in 64-bit nanoseconds, and one more second does not. */
  lemma SleepLimitIsNanosecondBound()
    ensures SleepLimit * 1_000_000_000 <= Pow2(63) - 1 < (SleepLimit + 1) * 1_000_000_000
    ensures -(SleepLimit * 1_000_000_000) >= -(Pow2(63) as int) > -((SleepLimit + 1) * 1_000_000_000)
  {
    Pow2Is63();
  }

  lemma Pow2Is63()
    ensures Pow2(63) == 9_223_372_036_854_775_808
  {
    assert Pow2(1) == 2;
    Pow2Add(1, 1);
    Pow2Add(2, 1);
    Pow2Add(2, 2);
    Pow2Add(4, 3);
    Pow2Add(4, 4);
    Pow2Add(8, 7);
    Pow2Add(8, 8);
    Pow2Add(16, 15);
    Pow2Add(16, 16);
    Pow2Add(32, 31);
  }

  /** Exponents add. */
  lemma {:induction false} Pow2Add(a: nat, b: nat)
    ensures Pow2(a + b) == Pow2(a) * Pow2(b)
    decreases b
  {
    if b > 0 {
      Pow2Add(a, b - 1);
      assert Pow2(a + b) == 2 * Pow2(a + b - 1);
    }
  }

  /** An integer whose decimal digits fit the digit limit. */
  predicate WithinDigitLimit(n: int) {
    |NatString(Magnitude(n))| <= MaxStrDigits
  }

  lemma {:induction false} NatStringValue(n: nat)
    ensures DigitsValue(NatString(n)) == n
  {
    if n >= 10 {
      var s := NatString(n);
      assert s[..|s| - 1] == NatString(n / 10);
      NatStringValue(n / 10);
    }
  }

  lemma NatStringIsRun(n: nat)
    ensures IsDigitRun(NatString(n))
    ensures DropUnderscores(NatString(n)) == NatString(n)
  {
  }

  lemma DigitNotSpace(c: char)
    requires IsDigit(c) || c == '-'
    ensures !IsIntSpace(c)
  {
  }

  /** Unpadded text without a sign is read as a run of digits. */
  lemma ParseUnsigned(t: string)
    requires |t| > 0 && IntStrip(t) == t && t[0] != '-' && t[0] != '+'
    ensures ParseInt(t) == ReadDigits(t)
  {
  }

  /** Unpadded text after a sign is read as a run of digits, negated for `-`. */
  lemma ParseSigned(t: string)
    requires |t| > 0 && IntStrip(t) == t && (t[0] == '-' || t[0] == '+')
    ensures ParseInt(t) == match ReadDigits(t[1..])
                           case None => None
                           case Some(n) => Some(if t[0] == '-' then -(n as int) else n)
  {
  }

  /** Digits are read with their value, exactly when they fit the digit limit. */
  lemma ReadNatString(m: nat)
    ensures ReadDigits(NatString(m)) == if |NatString(m)| <= MaxStrDigits then Some(m) else None
  {
    NatStringValue(m);
    NatStringIsRun(m);
  }

  /** A rendered integer has no surrounding white space. */
  lemma RenderedUnpadded(n: int)
    ensures IntStrip(IntString(n)) == IntString(n)
  {
    var s := IntString(n);
    DigitNotSpace(s[0]);
    DigitNotSpace(s[|s| - 1]);
    Text.StripWithUnpadded(s, IsIntSpace);
  }

  /** `str(n)` of a negative `n` is `-` and the digits of `-n`. */
  lemma NegativeRendering(n: int)
    requires n < 0
    ensures |IntString(n)| > 1 && IntString(n)[0] == '-' && IntString(n)[1..] == NatString(-n)
  {
  }

  lemma NegativeWithin(n: int)
    requires n < 0 && |NatString(-n)| <= MaxStrDigits
    ensures ParseInt(IntString(n)) == Some(n)
  {
    var m: nat := -n;
    NegativeRendering(n);
    RenderedUnpadded(n);
    ParseSigned(IntString(n));
    ReadNatString(m);
    assert ReadDigits(IntString(n)[1..]) == Some(m);
  }

  lemma NegativeBeyond(n: int)
    requires n < 0 && |NatString(-n)| > MaxStrDigits
    ensures ParseInt(IntString(n)) == None
  {
    var m: nat := -n;
    NegativeRendering(n);
    RenderedUnpadded(n);
    ParseSigned(IntString(n));
    ReadNatString(m);
    assert ReadDigits(IntString(n)[1..]) == None;
  }

  lemma NegativeReadBack(n: int)
    requires n < 0
    ensures ParseInt(IntString(n)) == if WithinDigitLimit(n) then Some(n) else None
  {
    if |NatString(-n)| <= MaxStrDigits {
      NegativeWithin(n);
    } else {
      NegativeBeyond(n);
    }
  }

  lemma NonNegativeReadBack(n: int)
    requires n >= 0
    ensures ParseInt(IntString(n)) == if WithinDigitLimit(n) then Some(n) else None
  {
    ReadNatString(n);
    RenderedUnpadded(n);
    ParseUnsigned(IntString(n));
  }

  /** `parse_int` reads back every integer as Python prints it, exactly when
      its digits fit the digit limit; a longer one is refused. */
  lemma ParseIntString(n: int)
    ensures ParseInt(IntString(n)) == if WithinDigitLimit(n) then Some(n) else None
  {
    if n < 0 {
      NegativeReadBack(n);
    } else {
      NonNegativeReadBack(n);
    }
  }

  /** More digits than the limit are refused, whatever their value. */
  lemma LongDigitsRefused(s: string)
    requires forall i | 0 <= i < |s| :: IsDigit(s[i])
    requires |s| > MaxStrDigits
    ensures ParseInt(s) == None
  {
    assert IntStrip(s) == s by {
      DigitNotSpace(s[0]);
      DigitNotSpace(s[|s| - 1]);
      Text.StripWithUnpadded(s, IsIntSpace);
    }
    assert DropUnderscores(s) == s;
    ParseUnsigned(s);
  }

  /** White space of `int` around the text is ignored. */
  lemma IntPaddingIgnored(pad: string, s: string, pad2: string)
    requires forall i | 0 <= i < |pad| :: IsIntSpace(pad[i])
    requires forall i | 0 <= i < |pad2| :: IsIntSpace(pad2[i])
    ensures ParseInt(pad + s + pad2) == ParseInt(s)
  {
    Text.StripWithPadding(pad, s, pad2, IsIntSpace);
    SameStripSameParse(pad + s + pad2, s);
  }

  /** `int` reads only the stripped text. */
  lemma SameStripSameParse(s1: string, s2: string)
    requires IntStrip(s1) == IntStrip(s2)
    ensures ParseInt(s1) == ParseInt(s2)
  {
  }

  /** An ASCII separator U+001C-U+001F at either end is not skipped: the text
      is refused, although `str.strip` would remove the separator. */
  lemma SeparatorRefused(c: char, s: string)
    requires 0x1C <= c as int <= 0x1F
    ensures Text.IsSpace(c)
    ensures ParseInt([c] + s) == None
    ensures ParseInt(s + [c]) == None
  {
    SeparatorLeads(c, s);
    SeparatorTrails(c, s);
  }

  lemma SeparatorLeads(c: char, s: string)
    requires 0x1C <= c as int <= 0x1F
    ensures ParseInt([c] + s) == None
  {
    var u := [c] + s;
    Text.SkipWhileAt(u, IsIntSpace, 0, 0);
    var t := IntStrip(u);
    assert |t| > 0 && t[0] == c;
    assert !IsDigitRun(t);
  }

  lemma SeparatorTrails(c: char, s: string)
    requires 0x1C <= c as int <= 0x1F
    ensures ParseInt(s + [c]) == None
  {
    var u := s + [c];
    var lo := Text.SkipWhile(u, IsIntSpace, 0);
    assert !IsIntSpace(u[|u| - 1]);
    assert lo < |u|;
    Text.BackWhileAt(u, IsIntSpace, lo, |u|, |u|);
    var t := IntStrip(u);
    assert |t| > 0 && t[|t| - 1] == c;
    assert |t| > 1 ==> !IsDigitRun(t[1..]);
    assert !IsDigitRun(t);
  }

  /** Two underscores in a row are refused. */
  lemma ParseIntDoubleUnderscoreExample()
    ensures ParseInt("1__0") == None
  {
    Text.StripWithUnpadded("1__0", IsIntSpace);
    ParseUnsigned("1__0");
    assert !IsDigitRun("1__0") by {
      assert "1__0"[1] == '_' && !IsDigit("1__0"[2]);
    }
  }
}

=== FILE: keys.dfy ===
/** The locator strategies `SEARCH` with `_get_by` (main.py:153-162,
    403-407), and the key tables `KEYS`/`KEY_COMBOS` with `_parse_keys`
    (main.py:164-197, 415-434). */
module Keys {
  import opened Wrappers
  import opened Faults
  import Text

  /** The values of `SEARCH`: Selenium's `By` strategies. */
  datatype Strategy = XPath | Css | Id | Name | ClassName | TagName | LinkText | PartialLinkText

  /** The key of `SEARCH` for each strategy. */
  function StrategyKey(s: Strategy): string {
    match s
    case XPath => "XPATH"
    case Css => "CSS"
    case Id => "ID"
    case Name => "NAME"
    case ClassName => "CLASS"
    case TagName => "TAG"
    case LinkText => "LINK"
    case PartialLinkText => "PLINK"
  }

  /** `_get_by`: the strategy whose key is `key` upper-cased; any other key
      raises `KeyError` naming the key as written. */
  function GetBy(key: string): (r: Result<Strategy, Fault>)
    ensures r.Ok? ==> StrategyKey(r.value) == Text.Upper(key)
    ensures r.Err? ==> r.error == UnknownStrategy(key)
  {
    match Text.Upper(key)
    case "XPATH" => Ok(XPath)
    case "CSS" => Ok(Css)
    case "ID" => Ok(Id)
    case "NAME" => Ok(Name)
    case "CLASS" => Ok(ClassName)
    case "TAG" => Ok(TagName)
    case "LINK" => Ok(LinkText)
    case "PLINK" => Ok(PartialLinkText)
    case _ => Err(UnknownStrategy(key))
  }

  /** Every strategy is reached from its key, in any letter case. */
  lemma GetByFindsEveryStrategy(s: Strategy, key: string)
    requires Text.Upper(key) == StrategyKey(s)
    ensures GetBy(key) == Ok(s)
  {
    match s
    case XPath =>
    case Css =>
    case Id =>
    case Name =>
    case ClassName =>
    case TagName =>
    case LinkText =>
    case PartialLinkText =>
  }

  /** `id`, `Id` and `ID` all select `By.ID`; `ids` selects nothing. */
  lemma GetByExamples()
    ensures GetBy("id") == Ok(Id)
    ensures GetBy("xPath") == Ok(XPath)
    ensures GetBy("ids") == Err(UnknownStrategy("ids"))
  {
    GetByFindsEveryStrategy(Id, "id");
    GetByFindsEveryStrategy(XPath, "xPath");
    assert Text.Upper("ids") == "IDS";
  }

  /** The distinct values of `KEYS` (`ESC` and `ESCAPE` name the same key). */
  datatype Key =
    Enter | Tab | Escape | Space | Backspace | Delete | Home | End | PageUp | PageDown
    | ArrowLeft | ArrowRight | ArrowUp | ArrowDown | Control | Shift | Alt | Command | Meta

  /** `KEYS.get(name)`. */
  function KeyNamed(name: string): Option<Key> {
    match name
    case "ENTER" => Some(Enter)
    case "TAB" => Some(Tab)
    case "ESC" => Some(Escape)
    case "ESCAPE" => Some(Escape)
    case "SPACE" => Some(Space)
    case "BACKSPACE" => Some(Backspace)
    case "DELETE" => Some(Delete)
    case "HOME" => Some(Home)
    case "END" => Some(End)
    case "PAGE_UP" => Some(PageUp)
    case "PAGE_DOWN" => Some(PageDown)
    case "LEFT" => Some(ArrowLeft)
    case "RIGHT" => Some(ArrowRight)
    case "UP" => Some(ArrowUp)
    case "DOWN" => Some(ArrowDown)
    case "CTRL" => Some(Control)
    case "SHIFT" => Some(Shift)
    case "ALT" => Some(Alt)
    case "CMD" => Some(Command)
    case "META" => Some(Meta)
    case _ => None
  }

  /** A name of each key in `KEYS`. */
  function KeyName(k: Key): string {
    match k
    case Enter => "ENTER"
    case Tab => "TAB"
    case Escape => "ESCAPE"
    case Space => "SPACE"
    case Backspace => "BACKSPACE"
    case Delete => "DELETE"
    case Home => "HOME"
    case End => "END"
    case PageUp => "PAGE_UP"
    case PageDown => "PAGE_DOWN"
    case ArrowLeft => "LEFT"
    case ArrowRight => "RIGHT"
    case ArrowUp => "UP"
    case ArrowDown => "DOWN"
    case Control => "CTRL"
    case Shift => "SHIFT"
    case Alt => "ALT"
    case Command => "CMD"
    case Meta => "META"
  }

  /** `KEY_COMBOS.get(name)`: every combination is Control plus one letter. */
  function ComboLetter(name: string): Option<char> {
    match name
    case "CTRL_A" => Some('a')
    case "CTRL_C" => Some('c')
    case "CTRL_V" => Some('v')
    case "CTRL_X" => Some('x')
    case "CTRL_S" => Some('s')
    case "CTRL_Z" => Some('z')
    case "CTRL_Y" => Some('y')
    case _ => None
  }

  /** One argument of `el.send_keys(*seq)`: a special key or literal text. */
  datatype KeyItem = Special(key: Key) | Chars(text: string)

  function Combo(letter: char): seq<KeyItem> {
    [Special(Control), Chars([letter])]
  }

  /** A token written `{NAME}`, at least three characters long. */
  predicate IsBraced(t: string) {
    |t| >= 3 && t[0] == '{' && t[|t| - 1] == '}'
  }

  /** The name between the braces, upper-cased. */
  function BracedName(t: string): string
    requires IsBraced(t)
  {
    Text.Upper(t[1..|t| - 1])
  }

  /** A name in either table. */
  predicate Known(name: string) {
    KeyNamed(name).Some? || ComboLetter(name).Some?
  }

  /** One iteration of `_parse_keys`. A braced token must name a key or a
      combination (keys first), case-insensitively; an unbraced token is a
      combination, a key (combinations first), or literal text. */
  function ParseToken(t: string): (r: Result<seq<KeyItem>, Fault>)
    ensures r.Ok? ==> 1 <= |r.value| <= 2
    ensures r.Err? <==> IsBraced(t) && !Known(BracedName(t))
    ensures r.Err? ==> r.error == UnknownKeyName(t)
    ensures !IsBraced(t) && !Known(Text.Upper(t)) ==> r == Ok([Chars(t)])
  {
    if IsBraced(t) then
      var name := Text.Upper(t[1..|t| - 1]);
      match KeyNamed(name)
      case Some(k) => Ok([Special(k)])
      case None =>
        match ComboLetter(name)
        case Some(c) => Ok(Combo(c))
        case None => Err(UnknownKeyName(t))
    else
      var name := Text.Upper(t);
      match ComboLetter(name)
      case Some(c) => Ok(Combo(c))
      case None =>
        match KeyNamed(name)
        case Some(k) => Ok([Special(k)])
        case None => Ok([Chars(t)])
  }

  /** `_parse_keys`: the tokens' items in token order; the first unknown
      braced name raises `ValueError`. */
  function ParseKeys(ts: seq<string>): (r: Result<seq<KeyItem>, Fault>)
    ensures r.Ok? <==> forall i | 0 <= i < |ts| :: ParseToken(ts[i]).Ok?
    ensures r.Ok? ==> |ts| <= |r.value| <= 2 * |ts|
  {
    if ts == [] then Ok([])
    else
      var first :- ParseToken(ts[0]);
      var rest :- ParseKeys(ts[1..]);
      assert forall i | 1 <= i < |ts| :: ts[i] == ts[1..][i - 1];
      Ok(first + rest)
  }

  /** Parsing distributes over concatenation of token lists: the items are the
      tokens' items, in order, and the first failing token decides the fault. */
  lemma {:induction false} ParseKeysAppend(a: seq<string>, b: seq<string>)
    ensures ParseKeys(a + b) ==
              match ParseKeys(a)
              case Err(f) => Err(f)
              case Ok(x) =>
                match ParseKeys(b)
                case Err(f) => Err(f)
                case Ok(y) => Ok(x + y)
  {
    if a == [] {
      assert a + b == b;
      match ParseKeys(b)
      case Err(_) =>
      case Ok(y) => assert [] + y == y;
    } else {
      var ab := a + b;
      assert ab[1..] == a[1..] + b;
      assert ab[0] == a[0];
      ParseKeysAppend(a[1..], b);
      match ParseToken(a[0])
      case Err(_) =>
      case Ok(x) =>
        match ParseKeys(a[1..])
        case Err(_) =>
        case Ok(y) =>
          match ParseKeys(b)
          case Err(_) =>
          case Ok(z) =>
            assert x + (y + z) == (x + y) + z;
    }
  }

  /** A single token parses on its own. */
  lemma ParseKeysSingle(t: string)
    ensures ParseKeys([t]) == ParseToken(t)
  {
    assert [t][1..] == [];
    if ParseToken(t).Ok? {
      assert ParseToken(t).value + [] == ParseToken(t).value;
    }
  }

  /** Unbraced tokens never fail, whatever they say. */
  lemma UnbracedNeverFails(ts: seq<string>)
    requires forall i | 0 <= i < |ts| :: !IsBraced(ts[i])
    ensures ParseKeys(ts).Ok?
  {
  }

  /** Every key is reached from its name, braced or not, in any letter case. */
  lemma KeyNameParses(k: Key, t: string)
    requires Text.Upper(t) == KeyName(k)
    ensures ParseToken(t) == Ok([Special(k)])
    ensures ParseToken("{" + t + "}") == Ok([Special(k)])
  {
    var b := "{" + t + "}";
    assert b[1..|b| - 1] == t;
    assert !IsBraced(t) by {
      if |t| > 0 {
        assert Text.Upper(t)[0] == Text.UpperChar(t[0]);
      }
    }
    match k
    case Enter =>
    case Tab =>
    case Escape =>
    case Space =>
    case Backspace =>
    case Delete =>
    case Home =>
    case End =>
    case PageUp =>
    case PageDown =>
    case ArrowLeft =>
    case ArrowRight =>
    case ArrowUp =>
    case ArrowDown =>
    case Control =>
    case Shift =>
    case Alt =>
    case Command =>
    case Meta =>
  }

  /** No name is both a key and a combination, so the order in which the
      two tables are consulted never matters. */
  lemma TablesDisjoint(name: string)
    ensures !(KeyNamed(name).Some? && ComboLetter(name).Some?)
  {
  }

  /** Every combination is reached from its name, braced or not, in any
      letter case: Control, then its letter. */
  lemma ComboNameParses(t: string, c: char)
    requires ComboLetter(Text.Upper(t)) == Some(c)
    ensures ParseToken(t) == Ok([Special(Control), Chars([c])])
    ensures ParseToken("{" + t + "}") == Ok([Special(Control), Chars([c])])
  {
    var b := "{" + t + "}";
    assert b[1..|b| - 1] == t;
    assert !IsBraced(t) by {
      assert Text.Upper(t)[0] == Text.UpperChar(t[0]);
    }
    TablesDisjoint(Text.Upper(t));
  }

  /** What a token yields, by its shape and the tables: a known name gives
      its key or combination, an unknown braced name fails, and anything
      else is typed as it is. */
  lemma ParseTokenDecides(t: string)
    ensures IsBraced(t) ==>
              match KeyNamed(BracedName(t))
              case Some(k) => ParseToken(t) == Ok([Special(k)])
              case None =>
                match ComboLetter(BracedName(t))
                case Some(c) => ParseToken(t) == Ok(Combo(c))
                case None => ParseToken(t) == Err(UnknownKeyName(t))
    ensures !IsBraced(t) ==>
              match KeyNamed(Text.Upper(t))
              case Some(k) => ParseToken(t) == Ok([Special(k)])
              case None =>
                match ComboLetter(Text.Upper(t))
                case Some(c) => ParseToken(t) == Ok(Combo(c))
                case None => ParseToken(t) == Ok([Chars(t)])
  {
    if IsBraced(t) {
      TablesDisjoint(BracedName(t));
    } else {
      TablesDisjoint(Text.Upper(t));
    }
  }

  /** `{enter}` presses Enter, `ctrl_a` is Control+a, `hi`, `{}` and `{` are
      literal text, and `{NOPE}` is refused. */
  lemma ParseTokenExamples()
    ensures ParseToken("{enter}") == Ok([Special(Enter)])
    ensures ParseToken("ctrl_a") == Ok([Special(Control), Chars("a")])
    ensures ParseToken("hi") == Ok([Chars("hi")])
    ensures ParseToken("{}") == Ok([Chars("{}")])
    ensures ParseToken("{NOPE}") == Err(UnknownKeyName("{NOPE}"))
  {
    KeyNameParses(Enter, "enter");
    assert "{" + "enter" + "}" == "{enter}";
    assert Text.Upper("hi") == "HI";
    assert Text.Upper("ctrl_a") == "CTRL_A";
    assert Text.Upper("{}") == "{}";
    assert Text.Upper("NOPE") == "NOPE";
    assert "{NOPE}"[1..5] == "NOPE";
  }

  /** Items come out in token order. */
  lemma ParseKeysExample()
    ensures ParseKeys(["{enter}", "hi", "ctrl_a"]) == Ok([Special(Enter), Chars("hi"), Special(Control), Chars("a")])
  {
    ParseTokenExamples();
    ParseKeysSingle("{enter}");
    ParseKeysSingle("hi");
    ParseKeysSingle("ctrl_a");
    ParseKeysAppend(["{enter}"], ["hi", "ctrl_a"]);
    ParseKeysAppend(["hi"], ["ctrl_a"]);
    assert ["{enter}"] + ["hi", "ctrl_a"] == ["{enter}", "hi", "ctrl_a"];
    assert ["hi"] + ["ctrl_a"] == ["hi", "ctrl_a"];
    assert ParseKeys(["hi", "ctrl_a"]) == Ok([Chars("hi"), Special(Control), Chars("a")]) by {
      assert [Chars("hi")] + [Special(Control), Chars("a")] == [Chars("hi"), Special(Control), Chars("a")];
    }
    assert [Special(Enter)] + [Chars("hi"), Special(Control), Chars("a")]
        == [Special(Enter), Chars("hi"), Special(Control), Chars("a")];
  }
}

=== FILE: placeholders.dfy ===
/** Variable substitution, `_var_filter` (main.py:825-837), with the pattern
    compiled at main.py:396:  \$\{([A-Za-z_][A-Za-z0-9_]*)(?:\|([A-Za-z0-9_|:%\-\.\+]+))?\}  */
module Placeholders {
  import opened Wrappers
  import opened Faults
  import Rewriting
  import Text

  predicate IsNameStart(c: char) {
    ('A' <= c <= 'Z') || ('a' <= c <= 'z') || c == '_'
  }

  predicate IsNameChar(c: char) {
    IsNameStart(c) || ('0' <= c <= '9')
  }

  /** The class `[A-Za-z0-9_|:%\-\.\+]` of the optional `|...` suffix. */
  predicate IsFilterChar(c: char) {
    IsNameChar(c) || c == '|' || c == ':' || c == '%' || c == '-' || c == '.' || c == '+'
  }

  /** End of the run of name characters starting at `from`. */
  function NameEnd(s: string, from: nat): (k: nat)
    requires from <= |s|
    ensures from <= k <= |s|
    ensures forall t | from <= t < k :: IsNameChar(s[t])
    ensures k < |s| ==> !IsNameChar(s[k])
    decreases |s| - from
  {
    if from < |s| && IsNameChar(s[from]) then NameEnd(s, from + 1) else from
  }

  /** The text between `${` and `}` that the pattern accepts: an identifier,
      optionally followed by `|` and one or more filter characters. */
  predicate IsKey(b: string) {
    && |b| > 0
    && IsNameStart(b[0])
    && var j := NameEnd(b, 1);
       j == |b| || (b[j] == '|' && j + 1 < |b| && forall t | j + 1 <= t < |b| :: IsFilterChar(b[t]))
  }

  lemma KeyHasNoBrace(b: string)
    requires IsKey(b)
    ensures '}' !in b
  {
    var j := NameEnd(b, 1);
    forall t | 0 <= t < |b|
      ensures b[t] != '}'
    {
      if t >= j && j < |b| && t > j {
        assert IsFilterChar(b[t]);
      }
    }
  }

  /** A complete match of the pattern: `${`, a key, `}`. */
  predicate IsPlaceholder(t: string) {
    |t| >= 3 && t[0] == '$' && t[1] == '{' && t[|t| - 1] == '}' && IsKey(t[2..|t| - 1])
  }

  /** End of the pattern's match starting at `i`, if it matches there. A key
      never contains `}`, so a match always ends at the first `}` after `${`. */
  function MatchAt(s: string, i: nat): (r: Option<nat>)
    requires i <= |s|
    ensures r.Some? ==> i + 4 <= r.value <= |s| && s[i] == '$' && s[i + 1] == '{'
  {
    if i + 2 <= |s| && s[i] == '$' && s[i + 1] == '{' then
      match Text.FindChar(s, '}', i + 2)
      case None => None
      case Some(k) => if IsKey(s[i + 2..k]) then Some(k + 1) else None
    else None
  }

  /** Every match of the pattern is a placeholder... */
  lemma MatchIsPlaceholder(s: string, i: nat)
    requires i <= |s| && MatchAt(s, i).Some?
    ensures IsPlaceholder(s[i..MatchAt(s, i).value])
  {
    Text.SliceOfSlice(s, i, MatchAt(s, i).value, 2, MatchAt(s, i).value - i - 1);
  }

  /** ...and the pattern matches at `i` whenever a prefix of `s[i..]` is a placeholder. */
  lemma {:induction false} PlaceholderMatches(s: string, i: nat, e: nat)
    requires i < e <= |s| && IsPlaceholder(s[i..e])
    ensures MatchAt(s, i) == Some(e)
  {
    var t := s[i..e];
    KeyHasNoBrace(t[2..|t| - 1]);
    Text.SliceOfSlice(s, i, e, 2, e - i - 1);
    Text.FindCharFirst(s, '}', i + 2, e - 1);
  }

  /** `re.search`: the leftmost match at or after `from`, as (start, end). */
  function Search(s: string, from: nat): (r: Option<(nat, nat)>)
    requires from <= |s|
    ensures r.Some? ==> from <= r.value.0 <= |s| && MatchAt(s, r.value.0) == Some(r.value.1)
    decreases |s| - from
  {
    match MatchAt(s, from)
    case Some(e) => Some((from, e))
    case None => if from == |s| then None else Search(s, from + 1)
  }

  /** No match is missed: `Search` finds one at or before every position where the pattern matches. */
  lemma {:induction false} SearchIsLeftmost(s: string, from: nat, j: nat)
    requires from <= j <= |s| && MatchAt(s, j).Some?
    ensures Search(s, from).Some? && Search(s, from).value.0 <= j
    decreases j - from
  {
    if from < j && MatchAt(s, from).None? {
      SearchIsLeftmost(s, from + 1, j);
    }
  }

  predicate HasPlaceholder(s: string) {
    Search(s, 0).Some?
  }

  /** Every match starts with `${`, so a string without `${` has none
      (the fast path at main.py:826-827 is only a shortcut). */
  lemma NoOpenerNoPlaceholder(s: string)
    requires s == [] || !Text.Contains(s, "${")
    ensures !HasPlaceholder(s)
  {
    if HasPlaceholder(s) {
      var i := Search(s, 0).value.0;
      assert s[i..i + 2] == "${";
      assert Text.OccursAt(s, "${", i);
    }
  }

  /** A word without `$` is left as it is, whatever the store holds. */
  lemma NoDollarUnchanged(store: map<string, string>, s: string, depth: nat)
    requires '$' !in s
    ensures Substitute(store, s, depth) == Ok(s)
  {
  }

  /** The matched text first occurs where the match is, so the
      `replace(name, value, 1)` of main.py:834 rewrites exactly the leftmost match. */
  lemma FirstOccurrenceIsMatch(s: string)
    requires HasPlaceholder(s)
    ensures var (i, e) := Search(s, 0).value;
            Text.IndexOf(s, s[i..e], 0) == Some(i)
  {
    var (i, e) := Search(s, 0).value;
    var name := s[i..e];
    assert Text.OccursAt(s, name, i);
    var p := Text.IndexOf(s, name, 0);
    if p.Some? && p.value < i {
      assert s[p.value..p.value + |name|] == name;
      MatchIsPlaceholder(s, i);
      PlaceholderMatches(s, p.value, p.value + |name|);
      SearchIsLeftmost(s, 0, p.value);
    }
  }

  /** The lookup key: everything between `${` and `}`, `|...` suffix included (main.py:832-834). */
  function KeyOf(name: string): string
    requires |name| >= 3
  {
    name[2..|name| - 1]
  }

  /** The key of the leftmost placeholder. */
  function LeftmostKey(s: string): string
    requires HasPlaceholder(s)
  {
    var (i, e) := Search(s, 0).value;
    s[i + 2..e - 1]
  }

  /** `s` with its leftmost placeholder replaced by `value`. */
  function Splice(s: string, value: string): string
    requires HasPlaceholder(s)
  {
    var (i, e) := Search(s, 0).value;
    s[..i] + value + s[e..]
  }

  /** One pass of `_var_filter` (main.py:826-834): no placeholder leaves the token
      alone; otherwise the leftmost one is looked up and that match, and only
      it, is replaced by the stored value. */
  function Step(store: map<string, string>, s: string): (r: Rewriting.Step<string, string>)
    ensures r.Finished? <==> !HasPlaceholder(s)
    ensures r.Missing? ==> HasPlaceholder(s) && r.key == LeftmostKey(s) && r.key !in store
    ensures r.Rewritten? ==> HasPlaceholder(s) && LeftmostKey(s) in store
                             && r.next == Splice(s, store[LeftmostKey(s)])
  {
    if s == [] || !Text.Contains(s, "${") then
      NoOpenerNoPlaceholder(s);
      Rewriting.Finished
    else
      match Search(s, 0)
      case None => Rewriting.Finished
      case Some((i, e)) =>
        var name := s[i..e];
        var key := KeyOf(name);
        Text.SliceOfSlice(s, i, e, 2, e - i - 1);
        if key !in store then Rewriting.Missing(key)
        else
          FirstOccurrenceIsMatch(s);
          Rewriting.Rewritten(Text.ReplaceFirst(s, name, store[key]))
  }

  function StepWith(store: map<string, string>): string -> Rewriting.Step<string, string> {
    s => Step(store, s)
  }

  /** `_var_filter`: rewrite the leftmost placeholder and rescan, until none is
      left; a missing key raises `RuntimeError` (main.py:836-837). `depth`
      bounds the recursion the way Python's recursion limit does. */
  function Substitute(store: map<string, string>, s: string, depth: nat): (r: Result<string, Fault>)
    ensures r.Ok? ==> !HasPlaceholder(r.value)
    ensures !HasPlaceholder(s) ==> r == Ok(s)
  {
    match Rewriting.Iterate(StepWith(store), s, depth)
    case Ok(t) => Ok(t)
    case Err(MissingKey(key)) => Err(UndefinedVariable(key))
    case Err(TooDeep) => Err(SubstitutionTooDeep)
  }

  /** Substitution fails only on a key that was never stored, or when the
      recursion limit is reached. */
  lemma SubstituteErrors(store: map<string, string>, s: string, depth: nat)
    requires Substitute(store, s, depth).Err?
    ensures var f := Substitute(store, s, depth).error;
            f == SubstitutionTooDeep || (f.UndefinedVariable? && f.name !in store)
  {
    var r := Rewriting.Iterate(StepWith(store), s, depth);
    if r.error.MissingKey? {
      Rewriting.MissingKeyOnTrail(StepWith(store), s, depth);
    }
  }

  /** A placeholder whose key was never stored stops substitution with `UndefinedVariable`. */
  lemma UndefinedFails(store: map<string, string>, s: string, depth: nat)
    requires HasPlaceholder(s) && LeftmostKey(s) !in store
    ensures Substitute(store, s, depth) == Err(UndefinedVariable(LeftmostKey(s)))
  {
    assert StepWith(store)(s) == Step(store, s);
  }

  /** With a stored key, substitution continues on the spliced token with one less level. */
  lemma SubstituteStep(store: map<string, string>, s: string, depth: nat)
    requires HasPlaceholder(s) && LeftmostKey(s) in store && depth > 0
    ensures Substitute(store, s, depth) == Substitute(store, Splice(s, store[LeftmostKey(s)]), depth - 1)
  {
    assert StepWith(store)(s) == Step(store, s);
  }

  /** More recursion depth never changes a result that was reached. */
  lemma DepthMonotone(store: map<string, string>, s: string, depth: nat, more: nat)
    requires Substitute(store, s, depth).Ok? && depth <= more
    ensures Substitute(store, s, more) == Substitute(store, s, depth)
  {
    Rewriting.DepthMonotone(StepWith(store), s, depth, more);
  }

  /** Substitution is idempotent: its successful results are fixed points. */
  lemma SubstituteIdempotent(store: map<string, string>, s: string, depth: nat, again: nat)
    requires Substitute(store, s, depth).Ok?
    ensures Substitute(store, Substitute(store, s, depth).value, again) == Substitute(store, s, depth)
  {
  }

  /** A token opening with `${d}`, for a one-letter key `d`: that is its
      leftmost placeholder, and splicing replaces just it. */
  lemma LeadingPlaceholder(s: string, value: string)
    requires |s| >= 4 && s[0] == '$' && s[1] == '{' && IsNameStart(s[2]) && s[3] == '}'
    ensures HasPlaceholder(s) && LeftmostKey(s) == [s[2]]
    ensures Splice(s, value) == value + s[4..]
  {
    var d := s[2..3];
    assert IsKey(d) by {
      assert NameEnd(d, 1) == 1;
    }
    assert s[0..4][2..3] == d;
    PlaceholderMatches(s, 0, 4);
  }

  /** A value spliced in is rescanned: `${d}` stored as `$` turns `${d}{x}`
      into `${x}`, a new placeholder, and `x` was never stored. */
  lemma SplicedPlaceholderRescanned()
    ensures Substitute(map["d" := "$"], "${d}{x}", 5) == Err(UndefinedVariable("x"))
  {
    var store := map["d" := "$"];
    LeadingPlaceholder("${d}{x}", "$");
    assert "$" + "${d}{x}"[4..] == "${x}";
    SubstituteStep(store, "${d}{x}", 5);
    LeadingPlaceholder("${x}", "");
    UndefinedFails(store, "${x}", 4);
  }

  /** A stored value holding a placeholder is expanded in turn: with `a`
      = `1` and `b` = `${a}2`, `${b}` becomes `12`. This is `_var_filter` on
      an arbitrary store: `set_var` itself only stores substituted values,
      so a script never builds this one. */
  lemma NestedValueExpanded()
    ensures Substitute(map["a" := "1", "b" := "${a}2"], "${b}", 5) == Ok("12")
  {
    var store := map["a" := "1", "b" := "${a}2"];
    LeadingPlaceholder("${b}", "${a}2");
    assert "${a}2" + "${b}"[4..] == "${a}2";
    SubstituteStep(store, "${b}", 5);
    LeadingPlaceholder("${a}2", "1");
    assert "1" + "${a}2"[4..] == "12";
    SubstituteStep(store, "${a}2", 4);
    NoDollarUnchanged(store, "12", 3);
  }
}

=== FILE: registry.dfy ===
/** The command table: `CommandSpec` (main.py:58-64), `COMMAND_SPECS`
    (main.py:67-150), `ALIASES` (main.py:200-209), and the name resolution of
    `run_line` (main.py:852-858). */
module Registry {
  import opened Wrappers
  import Text

  /** The `cmd_*` method of `CommandExecutor` an entry dispatches to, one per registered command. */
  datatype Handler =
    Click | RClick | DClick | Hover | ClickJs | Clear
    | Write | SendKeys | Press | WriteCe | WriteJs | DragDrop
    | DragOffset | Goto | Back | Forward | Refresh | Maximize
    | Minimize | SetWindow | Frame | FrameIndex | FrameParent | FrameDefault
    | WindowLatest | WindowIndex | WindowClose | WaitPresent | WaitVisible | WaitClickable
    | WaitInvisible | WaitText | ScrollIntoView | ScrollBy | ScrollTop | ScrollBottom
    | Select | Upload | Screenshot | ScreenshotElement | ExecJs | AssertText
    | AssertUrlContains | AssertTitleContains | PrintText | PrintAttr | Echo | CookieSet
    | CookiesSet | CookieGet | CookieDelete | CookieClear | Sleep | Pause
    | KeepOpen | SetVar

  /** `CommandSpec`: the handler (`func`), the least and greatest number of
      arguments after the command name (`max_args` None = unbounded), and the
      position from which the remaining arguments are joined into one. */
  datatype CommandSpec = CommandSpec(func: Handler, minArgs: nat, maxArgs: Option<nat>, joinFrom: Option<nat>)

  /** `COMMAND_SPECS.get(name)`, the handler part. */
  function Lookup(name: string): Option<Handler>
  {
    match name
    case "click" => Some(Click)
    case "rclick" => Some(RClick)
    case "dclick" => Some(DClick)
    case "hover" => Some(Hover)
    case "click_js" => Some(ClickJs)
    case "clear" => Some(Clear)
    case "write" => Some(Write)
    case "send_keys" => Some(SendKeys)
    case "press" => Some(Press)
    case "write_ce" => Some(WriteCe)
    case "write_js" => Some(WriteJs)
    case "drag_drop" => Some(DragDrop)
    case "drag_offset" => Some(DragOffset)
    case "goto" => Some(Goto)
    case "back" => Some(Back)
    case "forward" => Some(Forward)
    case "refresh" => Some(Refresh)
    case "maximize" => Some(Maximize)
    case "minimize" => Some(Minimize)
    case "set_window" => Some(SetWindow)
    case "frame" => Some(Frame)
    case "frame_index" => Some(FrameIndex)
    case "frame_parent" => Some(FrameParent)
    case "frame_default" => Some(FrameDefault)
    case "window_latest" => Some(WindowLatest)
    case "window_index" => Some(WindowIndex)
    case "window_close" => Some(WindowClose)
    case "wait_present" => Some(WaitPresent)
    case "wait_visible" => Some(WaitVisible)
    case "wait_clickable" => Some(WaitClickable)
    case "wait_invisible" => Some(WaitInvisible)
    case "wait_text" => Some(WaitText)
    case "scroll_into_view" => Some(ScrollIntoView)
    case "scroll_by" => Some(ScrollBy)
    case "scroll_top" => Some(ScrollTop)
    case "scroll_bottom" => Some(ScrollBottom)
    case "select" => Some(Select)
    case "upload" => Some(Upload)
    case "screenshot" => Some(Screenshot)
    case "screenshot_element" => Some(ScreenshotElement)
    case "exec_js" => Some(ExecJs)
    case "assert_text" => Some(AssertText)
    case "assert_url_contains" => Some(AssertUrlContains)
    case "assert_title_contains" => Some(AssertTitleContains)
    case "print_text" => Some(PrintText)
    case "print_attr" => Some(PrintAttr)
    case "echo" => Some(Echo)
    case "cookie_set" => Some(CookieSet)
    case "cookies_set" => Some(CookiesSet)
    case "cookie_get" => Some(CookieGet)
    case "cookie_delete" => Some(CookieDelete)
    case "cookie_clear" => Some(CookieClear)
    case "sleep" => Some(Sleep)
    case "pause" => Some(Pause)
    case "keep_open" => Some(KeepOpen)
    case "set_var" => Some(SetVar)
    case _ => None
  }

  /** The entry of `COMMAND_SPECS` for handler `h`. */
  function SpecOf(h: Handler): (s: CommandSpec)
    ensures s.func == h
  {
    match h
    case Click => CommandSpec(Click, 2, Some(2), None)
    case RClick => CommandSpec(RClick, 2, Some(2), None)
    case DClick => CommandSpec(DClick, 2, Some(2), None)
    case Hover => CommandSpec(Hover, 2, Some(2), None)
    case ClickJs => CommandSpec(ClickJs, 2, Some(2), None)
    case Clear => CommandSpec(Clear, 2, Some(2), None)
    case Write => CommandSpec(Write, 3, None, None)
    case SendKeys => CommandSpec(SendKeys, 3, None, None)
    case Press => CommandSpec(Press, 1, None, None)
    case WriteCe => CommandSpec(WriteCe, 3, None, Some(2))
    case WriteJs => CommandSpec(WriteJs, 3, None, Some(2))
    case DragDrop => CommandSpec(DragDrop, 4, Some(4), None)
    case DragOffset => CommandSpec(DragOffset, 4, Some(4), None)
    case Goto => CommandSpec(Goto, 1, Some(1), None)
    case Back => CommandSpec(Back, 0, Some(0), None)
    case Forward => CommandSpec(Forward, 0, Some(0), None)
    case Refresh => CommandSpec(Refresh, 0, Some(0), None)
    case Maximize => CommandSpec(Maximize, 0, Some(0), None)
    case Minimize => CommandSpec(Minimize, 0, Some(0), None)
    case SetWindow => CommandSpec(SetWindow, 2, Some(2), None)
    case Frame => CommandSpec(Frame, 2, Some(2), None)
    case FrameIndex => CommandSpec(FrameIndex, 1, Some(1), None)
    case FrameParent => CommandSpec(FrameParent, 0, Some(0), None)
    case FrameDefault => CommandSpec(FrameDefault, 0, Some(0), None)
    case WindowLatest => CommandSpec(WindowLatest, 0, Some(0), None)
    case WindowIndex => CommandSpec(WindowIndex, 1, Some(1), None)
    case WindowClose => CommandSpec(WindowClose, 0, Some(0), None)
    case WaitPresent => CommandSpec(WaitPresent, 2, Some(3), None)
    case WaitVisible => CommandSpec(WaitVisible, 2, Some(3), None)
    case WaitClickable => CommandSpec(WaitClickable, 2, Some(3), None)
    case WaitInvisible => CommandSpec(WaitInvisible, 2, Some(3), None)
    case WaitText => CommandSpec(WaitText, 3, Some(4), None)
    case ScrollIntoView => CommandSpec(ScrollIntoView, 2, Some(3), None)
    case ScrollBy => CommandSpec(ScrollBy, 2, Some(2), None)
    case ScrollTop => CommandSpec(ScrollTop, 0, Some(0), None)
    case ScrollBottom => CommandSpec(ScrollBottom, 0, Some(0), None)
    case Select => CommandSpec(Select, 4, Some(4), None)
    case Upload => CommandSpec(Upload, 3, Some(3), None)
    case Screenshot => CommandSpec(Screenshot, 1, Some(1), None)
    case ScreenshotElement => CommandSpec(ScreenshotElement, 3, Some(3), None)
    case ExecJs => CommandSpec(ExecJs, 1, None, Some(0))
    case AssertText => CommandSpec(AssertText, 3, None, Some(2))
    case AssertUrlContains => CommandSpec(AssertUrlContains, 1, None, Some(0))
    case AssertTitleContains => CommandSpec(AssertTitleContains, 1, None, Some(0))
    case PrintText => CommandSpec(PrintText, 2, Some(2), None)
    case PrintAttr => CommandSpec(PrintAttr, 3, Some(3), None)
    case Echo => CommandSpec(Echo, 0, None, None)
    case CookieSet => CommandSpec(CookieSet, 2, Some(2), None)
    case CookiesSet => CommandSpec(CookiesSet, 1, Some(1), None)
    case CookieGet => CommandSpec(CookieGet, 1, Some(1), None)
    case CookieDelete => CommandSpec(CookieDelete, 1, Some(1), None)
    case CookieClear => CommandSpec(CookieClear, 0, Some(0), None)
    case Sleep => CommandSpec(Sleep, 1, Some(1), None)
    case Pause => CommandSpec(Pause, 0, Some(0), None)
    case KeepOpen => CommandSpec(KeepOpen, 0, Some(0), None)
    case SetVar => CommandSpec(SetVar, 2, Some(2), None)
  }

  /** `COMMAND_SPECS.get(name)`. */
  function Spec(name: string): Option<CommandSpec>
  {
    match Lookup(name)
    case None => None
    case Some(h) => Some(SpecOf(h))
  }

  /** Every handler, in the order of `COMMAND_SPECS`. */
  const Handlers: seq<Handler> := [Click, RClick, DClick, Hover, ClickJs, Clear, Write, SendKeys, Press, WriteCe, WriteJs, DragDrop, DragOffset, Goto, Back, Forward, Refresh, Maximize, Minimize, SetWindow, Frame, FrameIndex, FrameParent, FrameDefault, WindowLatest, WindowIndex, WindowClose, WaitPresent, WaitVisible, WaitClickable, WaitInvisible, WaitText, ScrollIntoView, ScrollBy, ScrollTop, ScrollBottom, Select, Upload, Screenshot, ScreenshotElement, ExecJs, AssertText, AssertUrlContains, AssertTitleContains, PrintText, PrintAttr, Echo, CookieSet, CookiesSet, CookieGet, CookieDelete, CookieClear, Sleep, Pause, KeepOpen, SetVar]

  /** `ALIASES.get(raw, raw)`: an exact, case-sensitive lookup that leaves unknown names alone. */
  function Alias(raw: string): string {
    match raw
    case "L_click" => "click"
    case "R_click" => "rclick"
    case "D_click" => "dclick"
    case "put" => "hover"
    case "jump" => "goto"
    case "delay" => "sleep"
    case "pause" => "pause"
    case "keep_open" => "keep_open"
    case _ => raw
  }

  /** The names `ALIASES` maps from. */
  predicate IsAlias(raw: string) {
    raw in {"L_click", "R_click", "D_click", "put", "jump", "delay", "pause", "keep_open"}
  }

  /** `ALIASES.get(raw_cmd, raw_cmd).lower()` (main.py:853). */
  function Resolve(raw: string): string {
    Text.Lower(Alias(raw))
  }

  /** The Python signature of a `cmd_*` method: positional parameters without
      default, with default, and whether a `*rest` parameter follows. */
  datatype Signature = Signature(required: nat, optional: nat, variadic: bool)

  function SignatureOf(h: Handler): Signature {
    match h
    case Click => Signature(2, 0, false)
    case RClick => Signature(2, 0, false)
    case DClick => Signature(2, 0, false)
    case Hover => Signature(2, 0, false)
    case ClickJs => Signature(2, 0, false)
    case Clear => Signature(2, 0, false)
    case Write => Signature(2, 0, true)
    case SendKeys => Signature(2, 0, true)
    case Press => Signature(0, 0, true)
    case WriteCe => Signature(2, 0, true)
    case WriteJs => Signature(2, 0, true)
    case DragDrop => Signature(4, 0, false)
    case DragOffset => Signature(4, 0, false)
    case Goto => Signature(1, 0, false)
    case Back => Signature(0, 0, false)
    case Forward => Signature(0, 0, false)
    case Refresh => Signature(0, 0, false)
    case Maximize => Signature(0, 0, false)
    case Minimize => Signature(0, 0, false)
    case SetWindow => Signature(2, 0, false)
    case Frame => Signature(2, 0, false)
    case FrameIndex => Signature(1, 0, false)
    case FrameParent => Signature(0, 0, false)
    case FrameDefault => Signature(0, 0, false)
    case WindowLatest => Signature(0, 0, false)
    case WindowIndex => Signature(1, 0, false)
    case WindowClose => Signature(0, 0, false)
    case WaitPresent => Signature(2, 1, false)
    case WaitVisible => Signature(2, 1, false)
    case WaitClickable => Signature(2, 1, false)
    case WaitInvisible => Signature(2, 1, false)
    case WaitText => Signature(3, 1, false)
    case ScrollIntoView => Signature(2, 1, false)
    case ScrollBy => Signature(2, 0, false)
    case ScrollTop => Signature(0, 0, false)
    case ScrollBottom => Signature(0, 0, false)
    case Select => Signature(4, 0, false)
    case Upload => Signature(3, 0, false)
    case Screenshot => Signature(1, 0, false)
    case ScreenshotElement => Signature(3, 0, false)
    case ExecJs => Signature(1, 0, false)
    case AssertText => Signature(3, 0, false)
    case AssertUrlContains => Signature(1, 0, false)
    case AssertTitleContains => Signature(1, 0, false)
    case PrintText => Signature(2, 0, false)
    case PrintAttr => Signature(3, 0, false)
    case Echo => Signature(0, 0, true)
    case CookieSet => Signature(2, 0, false)
    case CookiesSet => Signature(1, 0, false)
    case CookieGet => Signature(1, 0, false)
    case CookieDelete => Signature(1, 0, false)
    case CookieClear => Signature(0, 0, false)
    case Sleep => Signature(1, 0, false)
    case Pause => Signature(0, 0, false)
    case KeepOpen => Signature(0, 0, false)
    case SetVar => Signature(2, 0, false)
  }

  /** A call with `argc` positional arguments binds without `TypeError`. */
  predicate Accepts(sig: Signature, argc: nat) {
    sig.required <= argc && (sig.variadic || argc <= sig.required + sig.optional)
  }

  /** The arity check of main.py:871-876 passes. */
  predicate ArityOk(spec: CommandSpec, argc: nat) {
    spec.minArgs <= argc && (spec.maxArgs.None? || argc <= spec.maxArgs.value)
  }

  /** Every entry is consistent: a bounded entry admits some argument count,
      and an entry that joins is unbounded and needs exactly one argument past
      the joined position. */
  predicate WellFormed(spec: CommandSpec) {
    && (spec.maxArgs.Some? ==> spec.minArgs <= spec.maxArgs.value)
    && (spec.joinFrom.Some? ==> spec.maxArgs.None? && spec.minArgs == spec.joinFrom.value + 1)
  }

  lemma RegistryWellFormed(h: Handler)
    ensures WellFormed(SpecOf(h))
  {
  }

  /** Every argument count that passes the arity check and, for a command
      with a join, is at most one past the join position binds to the
      handler's Python signature. The join (main.py:864-869) leaves only such
      counts, so the reflective call `func(*args)` (main.py:882) never raises
      `TypeError`. The arity check alone would not do: `assert_text` has no
      maximum. */
  lemma ArityMatchesSignature(h: Handler, argc: nat)
    requires ArityOk(SpecOf(h), argc)
    requires SpecOf(h).joinFrom.Some? ==> argc <= SpecOf(h).joinFrom.value + 1
    ensures Accepts(SignatureOf(h), argc)
  {
    match h
    case Click =>
    case RClick =>
    case DClick =>
    case Hover =>
    case ClickJs =>
    case Clear =>
    case Write =>
    case SendKeys =>
    case Press =>
    case WriteCe =>
    case WriteJs =>
    case DragDrop =>
    case DragOffset =>
    case Goto =>
    case Back =>
    case Forward =>
    case Refresh =>
    case Maximize =>
    case Minimize =>
    case SetWindow =>
    case Frame =>
    case FrameIndex =>
    case FrameParent =>
    case FrameDefault =>
    case WindowLatest =>
    case WindowIndex =>
    case WindowClose =>
    case WaitPresent =>
    case WaitVisible =>
    case WaitClickable =>
    case WaitInvisible =>
    case WaitText =>
    case ScrollIntoView =>
    case ScrollBy =>
    case ScrollTop =>
    case ScrollBottom =>
    case Select =>
    case Upload =>
    case Screenshot =>
    case ScreenshotElement =>
    case ExecJs =>
    case AssertText =>
    case AssertUrlContains =>
    case AssertTitleContains =>
    case PrintText =>
    case PrintAttr =>
    case Echo =>
    case CookieSet =>
    case CookiesSet =>
    case CookieGet =>
    case CookieDelete =>
    case CookieClear =>
    case Sleep =>
    case Pause =>
    case KeepOpen =>
    case SetVar =>
  }

  /** Every alias names a registered command. */
  lemma AliasTargetsRegistered(raw: string)
    requires IsAlias(raw)
    ensures Lookup(Resolve(raw)).Some?
  {
    Text.LowerOfLowerCase(Alias(raw));
  }

  /** Alias lookup is exact and lower-casing happens after it: `L_click` and
      `CLICK` reach `click`, `l_click` reaches nothing. */
  lemma ResolveExamples()
    ensures Lookup(Resolve("L_click")) == Some(Click)
    ensures Lookup(Resolve("CLICK")) == Some(Click)
    ensures Lookup(Resolve("l_click")) == None
    ensures Lookup(Resolve("PUT")) == None
  {
    Text.LowerOfLowerCase("click");
    Text.LowerOfLowerCase("l_click");
    assert Text.Lower("CLICK") == "click";
    assert Text.Lower("PUT") == "put";
  }
}

=== FILE: rewriting.dfy ===
/** Rewriting to a fixed point with a bounded number of steps: the control
    structure of `_var_filter` (main.py:825-837), which calls itself on its own
    output until nothing is left to rewrite, separated from what one step does. */
module Rewriting {
  import opened Wrappers

  /** The outcome of one rewriting step: nothing to do, a lookup that failed, or a new subject. */
  datatype Step<S, K> = Finished | Missing(key: K) | Rewritten(next: S)

  /** Why iteration stopped without reaching a fixed point. */
  datatype Stop<K> = MissingKey(key: K) | TooDeep

  /** Apply `step` until it reports `Finished`, at most `depth` rewrites. */
  function Iterate<S, K>(step: S -> Step<S, K>, s: S, depth: nat): (r: Result<S, Stop<K>>)
    ensures r.Ok? ==> step(r.value).Finished?
    ensures step(s).Finished? ==> r == Ok(s)
    decreases depth
  {
    match step(s)
    case Finished => Ok(s)
    case Missing(k) => Err(MissingKey(k))
    case Rewritten(next) => if depth == 0 then Err(TooDeep) else Iterate(step, next, depth - 1)
  }

  /** The subjects visited from `s` within `depth` rewrites, `s` first. */
  function Trail<S, K>(step: S -> Step<S, K>, s: S, depth: nat): (t: seq<S>)
    ensures |t| >= 1 && t[0] == s
    decreases depth
  {
    match step(s)
    case Rewritten(next) => if depth == 0 then [s] else [s] + Trail(step, next, depth - 1)
    case _ => [s]
  }

  /** A missing key is reported by some subject on the trail. */
  lemma {:induction false} MissingKeyOnTrail<S, K>(step: S -> Step<S, K>, s: S, depth: nat)
    requires Iterate(step, s, depth).Err? && Iterate(step, s, depth).error.MissingKey?
    ensures var t := Trail(step, s, depth);
            step(t[|t| - 1]) == Missing(Iterate(step, s, depth).error.key)
    decreases depth
  {
    match step(s)
    case Finished =>
    case Missing(_) =>
    case Rewritten(next) =>
      MissingKeyOnTrail(step, next, depth - 1);
  }

  /** A larger bound never changes a fixed point that was reached. */
  lemma {:induction false} DepthMonotone<S, K>(step: S -> Step<S, K>, s: S, depth: nat, more: nat)
    requires Iterate(step, s, depth).Ok? && depth <= more
    ensures Iterate(step, s, more) == Iterate(step, s, depth)
    decreases depth
  {
    match step(s)
    case Finished =>
    case Missing(_) =>
    case Rewritten(next) =>
      DepthMonotone(step, next, depth - 1, more - 1);
  }
}

=== FILE: scenario.dfy ===
/** A two-command script run against a page that has no matching element:
    the failed click is logged and skipped in ignore-error mode, and ends the
    run in strict mode (main.py:884-913). */
module Scenario {
  import opened Wrappers
  import opened Faults
  import opened Environment
  import Text
  import Placeholders
  import Registry
  import Arguments
  import Keys
  import Handlers
  import Executor

  const Script: seq<string> := ["# log in", "click ID missing", "echo done"]

  /** `shlex.split` on the two command lines of the script. */
  function Lex(s: string): Option<seq<string>> {
    if s == "click ID missing" then Some(["click", "ID", "missing"])
    else if s == "echo done" then Some(["echo", "done"])
    else None
  }

  /** A page on which no element can be found and everything else succeeds. */
  function Page(trace: seq<Action>, a: Action): Reply {
    if a.FindElement? then Failed(NoSuchElement) else Answer(Value(0, "", 0, false))
  }

  function Settings(ignoreErrors: bool): Executor.Config {
    Executor.Config(ignoreErrors, 10, 8, Lex, Page)
  }

  lemma ClickPrepared(cfg: Executor.Config, store: map<string, string>)
    requires cfg.lex == Lex
    ensures Executor.Prepare(cfg, store, Script[1]) == Ok(Some(Executor.Call(Registry.Click, ["ID", "missing"])))
  {
    var words := ["click", "ID", "missing"];
    Text.StripUnpadded("click ID missing");
    assert Registry.Resolve("click") == "click" by {
      Text.LowerOfLowerCase("click");
    }
    assert words[1..] == ["ID", "missing"];
    assert Arguments.Normalize(Registry.SpecOf(Registry.Click), ["ID", "missing"]) == Ok(["ID", "missing"]);
    Executor.PlainWordsParse(store, cfg.depth, words, Registry.Click);
  }

  lemma EchoResolved()
    ensures Registry.Lookup(Registry.Resolve("echo")) == Some(Registry.Echo)
  {
    assert Registry.Resolve("echo") == "echo" by {
      Text.LowerOfLowerCase("echo");
    }
  }

  lemma EchoParsed(store: map<string, string>, depth: nat)
    ensures Executor.Parse(store, depth, ["echo", "done"]) == Ok(Executor.Call(Registry.Echo, ["done"]))
  {
    var words := ["echo", "done"];
    EchoResolved();
    assert words[1..] == ["done"];
    assert Arguments.Normalize(Registry.SpecOf(Registry.Echo), ["done"]) == Ok(["done"]);
    Executor.PlainWordsParse(store, depth, words, Registry.Echo);
  }

  lemma EchoPrepared(cfg: Executor.Config, store: map<string, string>)
    requires cfg.lex == Lex
    ensures Executor.Prepare(cfg, store, Script[2]) == Ok(Some(Executor.Call(Registry.Echo, ["done"])))
  {
    Text.StripUnpadded("echo done");
    assert Lex("echo done") == Some(["echo", "done"]);
    EchoParsed(store, cfg.depth);
  }

  /** The click looks the element up by id and fails with `NoSuchElementException`. */
  lemma ClickFails(st: State)
    ensures Handlers.Run(Page, 10, Registry.Click, ["ID", "missing"], st)
            == Exec(st.(trace := st.trace + [FindElement(Keys.Id, "missing")]), Err(Driver(NoSuchElement)))
  {
    Keys.GetByFindsEveryStrategy(Keys.Id, "ID");
  }

  /** The comment line runs nothing. */
  lemma CommentSkipped(cfg: Executor.Config, st: State)
    ensures Executor.RunLine(cfg, Script[0], st) == Exec(st, Ok(()))
  {
    Text.StripUnpadded("# log in");
    Executor.SkippedLineInert(cfg, Script[0], st);
  }

  /** Ignoring errors, the failed click is logged against its line. */
  lemma ClickSkipped(st: State)
    ensures Executor.RunLine(Settings(true), Script[1], st)
            == Exec(State(st.store, st.keepOpen, st.trace + [FindElement(Keys.Id, "missing")],
                          st.output + [Skipped("click ID missing", Driver(NoSuchElement))]), Ok(()))
  {
    ClickPrepared(Settings(true), st.store);
    ClickFails(st);
    Text.StripUnpadded("click ID missing");
    Executor.IgnoredFaultContinues(Settings(true), Script[1], st);
  }

  /** In strict mode the failed click is raised. */
  lemma ClickRaised(st: State)
    ensures Executor.RunLine(Settings(false), Script[1], st)
            == Exec(st.(trace := st.trace + [FindElement(Keys.Id, "missing")]), Err(Driver(NoSuchElement)))
  {
    ClickPrepared(Settings(false), st.store);
    ClickFails(st);
    Executor.OtherFaultsAbort(Settings(false), Script[1], st);
  }

  lemma EchoRuns(world: World, st: State)
    ensures Handlers.Run(world, 10, Registry.Echo, ["done"], st) == Exec(Print(st, "done"), Ok(()))
  {
    assert Text.JoinSpace(["done"]) == "done";
  }

  /** `echo done` prints `done`. */
  lemma EchoPrints(cfg: Executor.Config, st: State)
    requires cfg.lex == Lex && cfg.defaultTimeout == 10
    ensures Executor.RunLine(cfg, Script[2], st) == Exec(Print(st, "done"), Ok(()))
  {
    EchoPrepared(cfg, st.store);
    EchoRuns(cfg.world, st);
    assert Executor.Dispatch(cfg, Script[2], Executor.Call(Registry.Echo, ["done"]), st) == Exec(Print(st, "done"), Ok(()));
  }

  /** The state after the skipped click and the `echo`. */
  function Finished(st: State): State {
    State(st.store, st.keepOpen, st.trace + [FindElement(Keys.Id, "missing")],
          st.output + [Skipped("click ID missing", Driver(NoSuchElement)), Printed("done")])
  }

  /** The lines after the comment, ignoring errors. */
  lemma IgnoreModeCommands(st: State)
    ensures Executor.RunLines(Settings(true), Script[1..], st) == Executor.Completed(Finished(st))
  {
    var cfg := Settings(true);
    var st2 := State(st.store, st.keepOpen, st.trace + [FindElement(Keys.Id, "missing")],
                     st.output + [Skipped("click ID missing", Driver(NoSuchElement))]);
    assert Executor.RunLines(cfg, [Script[2]], st2) == Executor.Completed(Print(st2, "done")) by {
      EchoPrints(cfg, st2);
      assert [Script[2]][1..] == [];
    }
    assert Print(st2, "done") == Finished(st);
    ClickSkipped(st);
    assert Script[1..][0] == Script[1];
    assert Script[1..][1..] == [Script[2]];
  }

  /** Ignoring errors, the run completes: the click is logged as skipped and
      `echo` still prints. */
  lemma IgnoreModeCompletes(st: State)
    ensures Executor.RunLines(Settings(true), Script, st) == Executor.Completed(Finished(st))
  {
    IgnoreModeCommands(st);
    CommentSkipped(Settings(true), st);
  }

  /** In strict mode the same click ends the run at line 1; `echo` never runs. */
  lemma StrictModeAborts(st: State)
    ensures Executor.RunLines(Settings(false), Script, st)
            == Executor.Aborted(1, Driver(NoSuchElement), st.(trace := st.trace + [FindElement(Keys.Id, "missing")]))
  {
    var cfg := Settings(false);
    CommentSkipped(cfg, st);
    ClickRaised(st);
    assert Script[1..][0] == Script[1];
  }
}

=== FILE: text.dfy ===
/** The handful of Python `str` operations the interpreter relies on:
    `strip`, `lower`, `upper`, `sep.join`, `split(sep)`, `in` and `replace(old, new, 1)`. */
module Text {
  import opened Wrappers

  /** The characters for which Python's `str.isspace` holds. */
  predicate IsSpace(c: char) {
    var n := c as int;
    (0x09 <= n <= 0x0D) || (0x1C <= n <= 0x20) || n == 0x85 || n == 0xA0 || n == 0x1680
    || (0x2000 <= n <= 0x200A) || n == 0x2028 || n == 0x2029 || n == 0x202F || n == 0x205F || n == 0x3000
  }

  /** Index of the first character at or after `from` outside the class `sp`
      (|s| when there is none). */
  function SkipWhile(s: string, sp: char -> bool, from: nat): (k: nat)
    requires from <= |s|
    ensures from <= k <= |s|
    ensures forall i | from <= i < k :: sp(s[i])
    ensures k < |s| ==> !sp(s[k])
    decreases |s| - from
  {
    if from < |s| && sp(s[from]) then SkipWhile(s, sp, from + 1) else from
  }

  /** One past the last character at or after `lo` outside the class `sp`
      (`lo` when there is none). */
  function BackWhile(s: string, sp: char -> bool, lo: nat, hi: nat): (k: nat)
    requires lo <= hi <= |s|
    ensures lo <= k <= hi
    ensures forall i | k <= i < hi :: sp(s[i])
    ensures k > lo ==> !sp(s[k - 1])
    decreases hi - lo
  {
    if hi > lo && sp(s[hi - 1]) then BackWhile(s, sp, lo, hi - 1) else hi
  }

  /** `s` without its leading and trailing characters of the class `sp`. */
  function StripWith(s: string, sp: char -> bool): (r: string)
    ensures |r| <= |s|
    ensures r == [] || (!sp(r[0]) && !sp(r[|r| - 1]))
    ensures r == [] ==> forall i | 0 <= i < |s| :: sp(s[i])
  {
    var lo := SkipWhile(s, sp, 0);
    var hi := BackWhile(s, sp, lo, |s|);
    s[lo..hi]
  }

  /** Python `s.strip()`: `s` without its leading and trailing white space. */
  function Strip(s: string): (r: string)
    ensures |r| <= |s|
    ensures r == [] || (!IsSpace(r[0]) && !IsSpace(r[|r| - 1]))
    ensures r == [] ==> forall i | 0 <= i < |s| :: IsSpace(s[i])
  {
    StripWith(s, IsSpace)
  }

  /** A string that neither starts nor ends with a character of the class is its own strip. */
  lemma StripWithUnpadded(s: string, sp: char -> bool)
    requires s == [] || (!sp(s[0]) && !sp(s[|s| - 1]))
    ensures StripWith(s, sp) == s
  {
  }

  /** A string that neither starts nor ends with white space is its own `strip()`. */
  lemma StripUnpadded(s: string)
    requires s == [] || (!IsSpace(s[0]) && !IsSpace(s[|s| - 1]))
    ensures Strip(s) == s
  {
    StripWithUnpadded(s, IsSpace);
  }

  /** `SkipWhile` stops at the first character outside the class. */
  lemma SkipWhileAt(s: string, sp: char -> bool, from: nat, k: nat)
    requires from <= k <= |s|
    requires forall i | from <= i < k :: sp(s[i])
    requires k < |s| ==> !sp(s[k])
    ensures SkipWhile(s, sp, from) == k
  {
  }

  /** `BackWhile` stops after the last character outside the class. */
  lemma BackWhileAt(s: string, sp: char -> bool, lo: nat, hi: nat, k: nat)
    requires lo <= k <= hi <= |s|
    requires forall i | k <= i < hi :: sp(s[i])
    requires k > lo ==> !sp(s[k - 1])
    ensures BackWhile(s, sp, lo, hi) == k
  {
  }

  /** Indexing into a concatenation of three parts. */
  lemma Concat3At<T>(a: seq<T>, b: seq<T>, c: seq<T>, i: nat)
    requires i < |a| + |b| + |c|
    ensures (a + b + c)[i] == if i < |a| then a[i] else if i < |a| + |b| then b[i - |a|] else c[i - |a| - |b|]
  {
  }

  /** Padding of the class around text entirely of the class strips to nothing. */
  lemma StripWithPaddingBlank(pad: string, s: string, pad2: string, sp: char -> bool)
    requires forall i | 0 <= i < |pad| :: sp(pad[i])
    requires forall i | 0 <= i < |pad2| :: sp(pad2[i])
    requires SkipWhile(s, sp, 0) == |s|
    ensures StripWith(pad + s + pad2, sp) == [] == StripWith(s, sp)
  {
    var u := pad + s + pad2;
    var p := |pad|;
    forall i | 0 <= i < |u|
      ensures sp(u[i])
    {
      Concat3At(pad, s, pad2, i);
    }
    SkipWhileAt(u, sp, 0, |u|);
  }

  /** The first character of `pad + s + pad2` outside the class is the first one of `s`. */
  lemma SkipPadding(pad: string, s: string, pad2: string, sp: char -> bool, a: nat)
    requires forall i | 0 <= i < |pad| :: sp(pad[i])
    requires a < |s| && SkipWhile(s, sp, 0) == a
    ensures SkipWhile(pad + s + pad2, sp, 0) == |pad| + a
  {
    var u := pad + s + pad2;
    var p := |pad|;
    forall i | 0 <= i < p + a
      ensures sp(u[i])
    {
      Concat3At(pad, s, pad2, i);
    }
    Concat3At(pad, s, pad2, p + a);
    SkipWhileAt(u, sp, 0, p + a);
  }

  /** The last character of `pad + s + pad2` outside the class is the last one of `s`. */
  lemma BackPadding(pad: string, s: string, pad2: string, sp: char -> bool, a: nat, b: nat)
    requires forall i | 0 <= i < |pad2| :: sp(pad2[i])
    requires a < b <= |s| && BackWhile(s, sp, a, |s|) == b
    ensures BackWhile(pad + s + pad2, sp, |pad| + a, |pad + s + pad2|) == |pad| + b
  {
    var u := pad + s + pad2;
    var p := |pad|;
    forall i | p + b <= i < |u|
      ensures sp(u[i])
    {
      Concat3At(pad, s, pad2, i);
    }
    Concat3At(pad, s, pad2, p + b - 1);
    BackWhileAt(u, sp, p + a, |u|, p + b);
  }

  /** The strip is the slice between the first and after the last character outside the class. */
  lemma StripWithBetween(u: string, sp: char -> bool, lo: nat, hi: nat)
    requires lo <= |u| && SkipWhile(u, sp, 0) == lo
    requires lo <= hi <= |u| && BackWhile(u, sp, lo, |u|) == hi
    ensures StripWith(u, sp) == u[lo..hi]
  {
  }

  /** A slice inside the middle part of a concatenation is a slice of that part. */
  lemma MiddleSlice<T>(a: seq<T>, b: seq<T>, c: seq<T>, i: nat, j: nat)
    requires i <= j <= |b|
    ensures (a + b + c)[|a| + i..|a| + j] == b[i..j]
  {
    assert (a + b + c)[|a|..|a| + |b|] == b;
    SliceOfSlice(a + b + c, |a|, |a| + |b|, i, j);
  }

  /** Characters of the class around `s` are stripped with its own. */
  lemma StripWithPadding(pad: string, s: string, pad2: string, sp: char -> bool)
    requires forall i | 0 <= i < |pad| :: sp(pad[i])
    requires forall i | 0 <= i < |pad2| :: sp(pad2[i])
    ensures StripWith(pad + s + pad2, sp) == StripWith(s, sp)
  {
    var a := SkipWhile(s, sp, 0);
    if a == |s| {
      StripWithPaddingBlank(pad, s, pad2, sp);
    } else {
      var b := BackWhile(s, sp, a, |s|);
      SkipPadding(pad, s, pad2, sp, a);
      BackPadding(pad, s, pad2, sp, a, b);
      StripWithBetween(pad + s + pad2, sp, |pad| + a, |pad| + b);
      MiddleSlice(pad, s, pad2, a, b);
    }
  }

  /** Dropping the first element of a concatenation drops it from the left part. */
  lemma ConcatTail<T>(a: seq<T>, b: seq<T>)
    requires |a| > 0
    ensures (a + b)[0] == a[0] && (a + b)[1..] == a[1..] + b
  {
  }

  /** A sequence is its prefix followed by the rest. */
  lemma PrefixAndRest<T>(s: seq<T>, k: nat)
    requires k <= |s|
    ensures s[..k] + s[k..] == s
  {
  }

  lemma SliceOfSlice<T>(s: seq<T>, i: nat, e: nat, a: nat, b: nat)
    requires i <= e <= |s| && a <= b <= e - i
    ensures s[i..e][a..b] == s[i + a..i + b]
  {
    var t := s[i..e];
    forall k | 0 <= k < b - a
      ensures t[a..b][k] == s[i + a..i + b][k]
    {
      assert t[a..b][k] == t[a + k];
    }
  }

  function LowerChar(c: char): char {
    if 'A' <= c <= 'Z' then (c as int + 32) as char else c
  }

  function UpperChar(c: char): char {
    if 'a' <= c <= 'z' then (c as int - 32) as char else c
  }

  /** `s.lower()` on ASCII letters. */
  function Lower(s: string): string {
    seq(|s|, i requires 0 <= i < |s| => LowerChar(s[i]))
  }

  predicate IsLowerCase(s: string) {
    forall i | 0 <= i < |s| :: !('A' <= s[i] <= 'Z')
  }

  /** Lower-casing is the identity on text without capitals. */
  lemma LowerOfLowerCase(s: string)
    requires IsLowerCase(s)
    ensures Lower(s) == s
  {
  }

  /** `s.upper()` on ASCII letters. */
  function Upper(s: string): string {
    seq(|s|, i requires 0 <= i < |s| => UpperChar(s[i]))
  }

  /** Python `sep.join(parts)`. */
  function Join(parts: seq<string>, sep: char): string {
    if parts == [] then ""
    else if |parts| == 1 then parts[0]
    else parts[0] + [sep] + Join(parts[1..], sep)
  }

  /** Python `' '.join(parts)`. */
  function JoinSpace(parts: seq<string>): string {
    Join(parts, ' ')
  }

  /** Leftmost position at or after `from` holding `c`. */
  function FindChar(s: string, c: char, from: nat): (r: Option<nat>)
    requires from <= |s|
    ensures r.Some? ==> from <= r.value < |s| && s[r.value] == c
    ensures r.Some? ==> c !in s[from..r.value]
    ensures r.None? ==> c !in s[from..]
    decreases |s| - from
  {
    if from == |s| then None
    else if s[from] == c then Some(from)
    else FindChar(s, c, from + 1)
  }

  /** The first position holding `c` is the one `FindChar` reports. */
  lemma {:induction false} FindCharFirst(s: string, c: char, from: nat, i: nat)
    requires from <= i < |s| && s[i] == c && c !in s[from..i]
    ensures FindChar(s, c, from) == Some(i)
    decreases i - from
  {
    if from < i {
      assert s[from] in s[from..i];
      assert s[from + 1..i] == s[from..i][1..];
      FindCharFirst(s, c, from + 1, i);
    }
  }

  /** Python `s.split(sep)` for a one-character separator. */
  function Split(s: string, sep: char): (r: seq<string>)
    ensures |r| >= 1
    ensures forall i | 0 <= i < |r| :: sep !in r[i]
    decreases |s|
  {
    match FindChar(s, sep, 0)
    case None => [s]
    case Some(i) => [s[..i]] + Split(s[i + 1..], sep)
  }

  /** Joining the pieces of a split with the same separator gives back the string. */
  lemma {:induction false} JoinSplit(s: string, sep: char)
    ensures Join(Split(s, sep), sep) == s
    decreases |s|
  {
    match FindChar(s, sep, 0)
    case None =>
    case Some(i) =>
      var pieces := Split(s, sep);
      var tail := Split(s[i + 1..], sep);
      JoinSplit(s[i + 1..], sep);
      assert pieces == [s[..i]] + tail;
      assert pieces[1..] == tail;
      assert Join(pieces, sep) == s[..i] + [sep] + s[i + 1..];
      assert s == s[..i] + [sep] + s[i + 1..];
  }

  /** Splitting a join whose pieces are free of the separator gives back the pieces. */
  lemma {:induction false} SplitJoin(parts: seq<string>, sep: char)
    requires |parts| >= 1
    requires forall i | 0 <= i < |parts| :: sep !in parts[i]
    ensures Split(Join(parts, sep), sep) == parts
    decreases |parts|
  {
    var s := Join(parts, sep);
    if |parts| == 1 {
      assert FindChar(s, sep, 0).None?;
    } else {
      var p := parts[0];
      var rest := Join(parts[1..], sep);
      assert s == p + [sep] + rest;
      assert s[..|p|] == p;
      FindCharFirst(s, sep, 0, |p|);
      assert s[|p| + 1..] == rest;
      SplitJoin(parts[1..], sep);
    }
  }

  /** `pat` occurs in `s` starting at `i`. */
  predicate OccursAt(s: string, pat: string, i: nat) {
    i + |pat| <= |s| && s[i..i + |pat|] == pat
  }

  /** Leftmost occurrence of `pat` in `s` at or after `from`. */
  function IndexOf(s: string, pat: string, from: nat): (r: Option<nat>)
    ensures r.Some? ==> from <= r.value && OccursAt(s, pat, r.value)
    ensures r.Some? ==> forall j | from <= j < r.value :: !OccursAt(s, pat, j)
    ensures r.None? ==> forall j | from <= j :: !OccursAt(s, pat, j)
    decreases |s| - from
  {
    if from + |pat| > |s| then None
    else if OccursAt(s, pat, from) then Some(from)
    else IndexOf(s, pat, from + 1)
  }

  /** Python `pat in s`. */
  predicate Contains(s: string, pat: string) {
    IndexOf(s, pat, 0).Some?
  }

  /** Python `s.replace(pat, repl, 1)`: the first occurrence of `pat` replaced by `repl`. */
  function ReplaceFirst(s: string, pat: string, repl: string): string {
    match IndexOf(s, pat, 0)
    case None => s
    case Some(i) => s[..i] + repl + s[i + |pat|..]
  }
}

=== FILE: wrappers.dfy ===
/** Failure-compatible wrappers shared by every module of the interpreter model. */
module Wrappers {

  /** An optional value, used where the interpreter uses Python's `None`. */
  datatype Option<+T> = None | Some(value: T) {

    predicate IsFailure() {
      None?
    }

    function PropagateFailure<U>(): Option<U>
      requires None?
    {
      None
    }

    function Extract(): T
      requires Some?
    {
      value
    }
  }

  /** Either a value or the error that stopped the computation. */
  datatype Result<+R, +E> = Ok(value: R) | Err(error: E) {

    predicate IsFailure() {
      Err?
    }

    function PropagateFailure<U>(): Result<U, E>
      requires Err?
    {
      Err(error)
    }

    function Extract(): R
      requires Ok?
    {
      value
    }
  }
}
